=== FILE: README.md ===
# zipspy in Dafny

A model of the command-line glue and locator of zipspy, a tool that lists
and extracts members of a ZIP archive stored locally (`file://`) or in S3
(`s3://`) without downloading the whole archive. The model covers:

- the **provider registry** (`pkg/provider/provider.go`): named providers,
  each owning one location protocol, registered through options and looked
  up by protocol prefix (module `Provider`);
- the **zipspy client** (`pkg/zipspy/client.go`): client creation, the full
  entry list, exact-name selection and predicate selection over the archive's
  entries (module `Zipspy`);
- the **output helpers** (`cmd/util.go`): the separator built from two
  flags and the 128-byte chunked copy loop `writeToFile` (module `CmdUtil`,
  with Go's reader contract and string bytes in module `Streams`);
- the **`extract` command** (`cmd/extract.go`): flag validation, selection,
  the count-mismatch rule, directory skipping and the choice of output file
  for each entry (module `Extract`);
- the **`list` command** (`cmd/list.go`): the directory filter and the
  concatenated listing (module `List`);
- the **root pre-run** (`cmd/root.go`): scheme dispatch to a backend and the
  log-level rule (module `Root`).

Modelling choices:

- The ZIP reader (`pkg/reader`) is not part of this model. An archive is the
  sequence of its entries in central-directory order. Each entry is a name
  plus what `File.Open` yields: a content stream or an open error.
- A Go `io.Reader` is its *script*: the results of its successive `Read`
  calls. Once the script ends, every `Read` returns zero bytes and EOF.
  `writeToFile` is an imperative loop (`CmdUtil.WriteToFile`) proved equal
  to a reference definition (`CmdUtil.CopyResult`).
- Go strings become Dafny strings. The bytes a string contributes to output
  are its UTF-8 encoding (`Streams.Bytes`).
- Collaborators the code calls but does not define become parameters:
  `reader.NewReader` (`newReader`), `url.Parse` (`parseUri`), `os.OpenFile`
  success (`outputOpens`), the regular expression (`p`), each provider's
  factory, and Go's map iteration order in `GetPlugin` (`order`, any listing
  of the registered names).
- A panic in `MustRegisterProvider` is a `Failure` result.
- Where this snapshot of the code does not compile, the model follows the
  evident intent: `buildSeparator`/`writeToFile` are defined twice in
  package `cmd` and are modelled once; `cfg.zipReader` stands for the
  `provider` field; `local.NewClient`'s two results are used as one.
- Exact-name lookup returns entries grouped by query, in query order, with
  duplicates for repeated queries (`Zipspy.FilesNamed`).
- The root command attaches only the `extract` command (cmd/root.go:56); `list`
  is modelled as written even though this snapshot never registers it.

## Model

| member | source | states |
|---|---|---|
| Provider.RegisterProvider | pkg/provider/provider.go:46-62 | A taken name fails with NameTaken and a protocol owned by another provider fails with ProtocolTaken; in both cases the registry is unchanged. Registration succeeds exactly when neither holds. It then adds the one mapping name to (protocol, factory), keeps every other provider, and preserves the distinct-protocols invariant. |
| Provider.MustRegisterProvider | pkg/provider/provider.go:65-69 | Succeeds exactly when registration would; otherwise it panics (a Failure) with NameTaken when the name is taken and ProtocolTaken otherwise. |
| Provider.ApplyOptions | pkg/provider/provider.go:32-34 | A failure is a registration panic, NameTaken or ProtocolTaken. On success the registry holds its earlier names plus every option's name, and a valid registry stays valid. |
| Provider.NewRegistry | pkg/provider/provider.go:28-36 | A registry built from options only fails by a registration panic. When it succeeds it holds exactly the options' names and no two providers share a protocol. |
| Provider.NewRegistrySucceeds | pkg/provider/provider.go:28-43 | NewRegistry succeeds exactly when the options have pairwise distinct names and protocols, so a conflicting option aborts (panics) and is never silently dropped. |
| Provider.NewRegistryHolds | pkg/provider/provider.go:28-36 | A registry built from options is valid and holds exactly one provider per option, mapping its name to its protocol and factory. |
| Provider.ApplyOptionsSucceeds | pkg/provider/provider.go:32-34 | Applying options to a valid registry succeeds iff every option is new to it and the options are pairwise distinct. |
| Provider.ApplyOptionsAdds | pkg/provider/provider.go:32-34 | A successful application keeps earlier providers, adds each option's provider, and keeps the registry valid. |
| Provider.ApplyOptionsFirstConflict | pkg/provider/provider.go:32-34 | Options are registered in order: a failed application carries the panic of some option k such that every option before k registered successfully and registering option k on that result fails with exactly this error. |
| Provider.NewRegistryFirstConflict | pkg/provider/provider.go:28-36 | NewRegistry panics with the error of the first option that cannot be added to the providers registered before it. |
| Provider.Choose | pkg/provider/provider.go:75-79 | The provider picked is in the iteration order, its protocol prefixes the location, and no provider before it in that order has a prefixing protocol. None is picked iff no protocol prefixes the location. |
| Provider.GetPlugin | pkg/provider/provider.go:72-81 | Fails with UnsupportedLocation exactly when no registered protocol prefixes the location. Otherwise it returns the factory result of some provider whose protocol is a prefix, called with the location minus that prefix. |
| Provider.GetPluginDeterministic | pkg/provider/provider.go:75-78 | When at most one protocol prefixes the location, the unspecified map order does not change the result. |
| Zipspy.NewClient | pkg/zipspy/client.go:22-33 | A failing Size() gives SizeFailed and no client; a failing reader gives ReaderFailed; otherwise the client holds the reader's entries. |
| Zipspy.AllFiles | pkg/zipspy/client.go:35-38 | The full list is the unfiltered search: every entry in archive order, directories included. |
| Zipspy.GetFiles | pkg/zipspy/client.go:40-51 | The nested loop returns, for each query in order, the entries of that name in archive order. |
| Zipspy.FilesNamedCount | pkg/zipspy/client.go:43-50 | An entry comes back (times its name is queried) x (times it occurs); so every result's name is a query, unknown names add nothing, and repeated queries duplicate. |
| Zipspy.FilesNamedAppend | pkg/zipspy/client.go:43-50 | Results are ordered by query first: the result for queries a + b is the result for a followed by the result for b. |
| Zipspy.FilesNamedSound | pkg/zipspy/client.go:43-50 | Every entry the lookup returns is an archive entry whose name is one of the queries. |
| Zipspy.FilesNamedOnePerQuery | pkg/zipspy/client.go:43-50 | When each query names exactly one entry, the lookup returns one entry per query, in query order, each with its query's name. |
| Zipspy.UnknownNameAddsNothing | pkg/zipspy/client.go:43-47 | A query that names no entry contributes nothing and causes no error. |
| Zipspy.SearchFiles | pkg/zipspy/client.go:53-62 | The loop returns the entries whose name satisfies the predicate, in archive order. |
| Zipspy.MatchingIsSubsequence | pkg/zipspy/client.go:56-60 | The selection is the subsequence of entries at strictly increasing positions, namely exactly the positions whose names satisfy the predicate, so each entry appears once in archive order. |
| Zipspy.MatchingCount | pkg/zipspy/client.go:56-60 | A selected entry occurs as often as in the archive, and an entry whose name fails the predicate never occurs. |
| CmdUtil.BuildSeparator | cmd/util.go:10-20 | With --no-newlines the separator is verbatim. Otherwise an empty one becomes a newline and any other is wrapped in newlines. |
| CmdUtil.SeparatorInjective | cmd/util.go:10-20 | Distinct --separator values always produce distinct written separators. |
| CmdUtil.SeparatorFramedByNewlines | cmd/util.go:16-19 | Without --no-newlines the written separator starts and ends with a newline. |
| CmdUtil.StopAt | cmd/util.go:29-31 | The copy loop stops at the first read that fails or returns no bytes. Every earlier read delivered data without error. |
| CmdUtil.WriteToFile | cmd/util.go:22-43 | The loop makes the writes of the reference copy and returns its error. Each content write holds 1 to 128 bytes, and on success the last write is the separator. |
| CmdUtil.CopyOfCleanScript | cmd/util.go:22-43 | On a reader that delivers its bytes and then EOF, the output is all bytes read followed by the separator, written once at the end. |
| CmdUtil.StopsAtFirstEmptyRead | cmd/util.go:29-31 | Reads after the first empty read are never made and cannot affect the result. |
| CmdUtil.FailedReadAborts | cmd/util.go:25-28 | A read error other than EOF is returned. Only the earlier reads' data was written, and the separator was not. |
| CmdUtil.CopyOfText | cmd/util.go:22-43 | Copying from a string reader writes the string, then the separator. |
| Extract.ValidateExtract | cmd/extract.go:110-120 | Validation fails iff more than one output is given and the output count differs from the --file count. |
| Extract.OutputIndexInRange | cmd/extract.go:60-63 | Validation passed, there are several outputs, and the mismatch check let the loop run. Then found, input and output counts are equal, so outFiles[idx] is always in range. |
| Extract.SelectFiles | cmd/extract.go:122-129 | With --all the selection is every entry. Otherwise every selected entry is an archive entry named by a --file value. |
| Extract.SelectionRule | cmd/extract.go:122-129 | With --all every entry is selected, directories included, whatever --file says. Otherwise the selection is exact-name lookup. |
| Extract.CopyEntry | cmd/extract.go:81-96 | For one non-directory file, the body succeeds exactly when the file opens, its own output opens (with several outputs) and writeToFile returns no error. A success is that file's copy to its destination. A file that does not open fails with EntryOpenFailed carrying its name and the open error; otherwise an output that does not open fails with OutputOpenFailed naming outFiles[idx]; otherwise a failed copy gives WriteFailed with writeToFile's error. |
| Extract.CopyEntries | cmd/extract.go:76-97 | The loop ends with an error exactly when some file from the start position on fails to open, has an output that fails to open, or fails to copy. Each copy records the position of the file it came from, and positions strictly increase. A copy is of a non-directory file that opened, and its bytes are what writeToFile writes for it. With several outputs the file at position i goes to outFiles[i]; otherwise everything goes to the single destination. The loop never warns. An output-open error names a file that failed to open. |
| Extract.RunExtract | cmd/extract.go:43-100 | Validation failure or client failure aborts with no output. A count mismatch is an error with several outputs and only a warning otherwise. Zero outputs write everything to stdout and one output writes everything to that file. With several outputs the selected file at position i goes to outFiles[i], and copies follow selection order. Directories are never written. A single output that does not open fails the run with its name and no output. |
| Extract.CopyEntriesContents | cmd/extract.go:76-97 | When every selected file is readable and every output opens, the loop succeeds and writes each non-directory file's content followed by the separator, in selection order. |
| Extract.CopyEntriesCovers | cmd/extract.go:76-97 | A loop that ends without error has copied every non-directory file from the start position on. |
| Extract.RunExtractFails | cmd/extract.go:67-97 | Once validation, the mismatch check and the single output's open let the loop run, the run fails exactly when some selected file does not open, has an output that does not open, or fails to copy. |
| Extract.RunExtractCovers | cmd/extract.go:76-97 | A run that ends without error has copied every selected file that is not a directory. |
| Extract.FirstFailure | cmd/extract.go:76-97 | The first position from the start on whose file does not copy cleanly (or the end): every file before it copies cleanly and the file at it does not. |
| Extract.CopyEntriesStops | cmd/extract.go:81-96 | A loop that fails stops at the first file that does not copy cleanly: its error is that file's error, and every copy written is of a file before it, so no later file is opened or written. |
| Extract.RunExtractStopsAtFirstFailure | cmd/extract.go:76-97 | Once the loop runs, a failed run carries the error of the first selected file that does not copy cleanly, and has written only files before it. |
| Extract.ExtractSeveralOutputs | cmd/extract.go:60-97 | With several outputs, a readable selection and outputs that open, the run succeeds and outFiles[i] receives the content of the file at position i, then the separator, for every non-directory i. |
| Extract.OutputsFollowQueries | cmd/extract.go:60-93 | When each --file value names exactly one entry, the mismatch check passes and each copy's entry is the --file value at its position, written to the --out value at that position. |
| Extract.TotalsOnlyMismatchCheck | cmd/extract.go:60-65 | The mismatch check compares totals only. With two entries named a and `-f a -o d1 -f b -o d2`, the run succeeds without a warning and writes the second a to d2. |
| Extract.ExtractContents | cmd/extract.go:59-97 | With at most one output, a readable selection reaches that single destination in full: each file's content, then the separator. |
| Extract.DirectoriesNeverOpened | cmd/extract.go:77-80 | What opening a directory entry would yield never affects the run. |
| Extract.OpenErrorNameAsWrittenMisreports | cmd/extract.go:88-91 | The error message as written can name an output that opened fine instead of the one that failed. |
| List.RunList | cmd/list.go:27-52 | A client failure, or an --out file that cannot be opened, aborts before anything is written. Otherwise output goes to stdout, or to the --out file when one is given. |
| List.WriteNames | cmd/list.go:41-50 | The listing loop never fails: a string reader returns no read error. |
| List.WriteNamesText | cmd/list.go:41-50 | The listing loop writes exactly the bytes of each listed name followed by the separator, in archive order. |
| List.ListTextJoin | cmd/list.go:41-50 | The listing text is the listed entries' names, each followed by the separator. |
| List.ListingOutput | cmd/list.go:33-50 | Once the output opens, the listing succeeds and is the concatenation of name + separator over the kept names in archive order. |
| List.KeptEntries | cmd/list.go:41-45 | With --include-directory-names every entry is listed. Without it, exactly the entries whose names do not end in "/" are listed, in archive order. |
| Root.InitProvider | cmd/root.go:61-79 | An empty location is rejected. An s3:// location, checked first, goes to the S3 backend. A file:// location goes to the local backend with exactly that prefix removed. Any other scheme is rejected as unsupported. |
| Root.LocalRoundTrip | cmd/root.go:72-74 | Every file:// location reaches the local backend with its path intact. |
| Root.S3TakesPrecedence | cmd/root.go:65-71 | An s3:// location never reaches the local backend, and it succeeds exactly when the URI parses. |
| Root.ParseLevel | cmd/root.go:83-87 | A parsed verbosity is, ignoring ASCII case, the level's name or "warn" for Warn. Parsing fails exactly when it is neither "warn" nor any level's name. |
| Root.ParseLevelName | cmd/root.go:53 | Every level's name parses back to that level, so the default verbosity is valid. |
| Root.SetupLogger | cmd/root.go:81-92 | An unparsable verbosity is an error. In development mode a level less verbose than Debug is raised to Debug. Otherwise the parsed level is kept. |
| Root.DevelopmentIsVerbose | cmd/root.go:88-90 | Development mode never makes logging quieter and always logs Debug. |
| Root.PreRun | cmd/root.go:42-50 | The backend is chosen first and its error wins. When the backend succeeds and the logger fails, the logger's error is returned. The pre-run succeeds only when both succeed, and then returns exactly the backend initProvider chose and the level setupLogger set. |

## Left out

- The ZIP reader (`pkg/reader`): end-of-central-directory search,
  central-directory decoding, local headers and DEFLATE. It is not part of
  this model. Entries are given; `newReader` stands for it.
- The S3 and local backends (`pkg/provider/aws/s3/client.go`,
  `pkg/provider/local/client.go`): thin wrappers over the AWS SDK and the
  file system. Only their construction in `initProvider` is modelled.
- `url.Parse`, `logrus` output setup, `cobra` flag parsing and usage
  printing, `os.OpenFile`, and closing files are not modelled. The open
  result is the `outputOpens` parameter.
- `bufio` buffering and flushing: writers never fail in the model, so
  `Write`, `WriteString` and `Flush` errors are not modelled. After an
  error, the model records only the copies completed before it. Bytes that
  `bufio` may already have flushed for the failing entry are not recorded.
- File offsets: outputs are opened without truncation. Leftover bytes of a
  longer existing file, and overwriting when the same output name appears
  twice, are not modelled.
- The registry's `sync.RWMutex`: every operation is atomic.
- Provider.RegisterProvider: the duplicate-protocol error carries the
  protocol but not the owning provider's name. Under the distinct-protocols
  invariant exactly one provider owns the protocol, so the name is fixed;
  only its place in the message is omitted.
- Root.ParseLevel: letters are case-folded for ASCII only. Go's full
  Unicode lower-casing is not modelled.
- `validateExtractCommand`'s error when the `--file` flag is undefined: the
  flag is always defined, so this path is not modelled.
- Go strings that are not valid UTF-8 (raw ZIP names) are not modelled:
  names are Dafny strings.
- The count-mismatch warning is recorded as a value; log levels do not
  filter it.
- The mismatch check (cmd/extract.go:60) compares only totals, so with
  several outputs a missing name can be hidden by a duplicate entry and the
  output meant for it receives another file (`Extract.TotalsOnlyMismatchCheck`).
  Whether that is intended is unclear, so it is stated, not corrected.

## Findings

| source | as written | input that shows it | evidently intended | confidence | as-written member | corrected member |
|---|---|---|---|---|---|---|
| cmd/extract.go:88-91 | When opening `outFiles[idx]` fails, the error message names `outFiles[0]` | outputs `a.txt`, `b.txt`, where only `b.txt` cannot be opened: the message names `a.txt` | name `outFiles[idx]`, the file that failed to open | medium, not executed | Extract.OpenErrorNameAsWrittenMisreports | Extract.RunExtract |

=== FILE: cmdutil.dfy ===
/** The output helpers shared by the `list` and `extract` commands
    (cmd/util.go; cmd/extract.go:131-164 repeats them verbatim). */
module CmdUtil {
  import opened Wrappers
  import opened Streams

  /** Where a command writes: standard output or a named file. */
  datatype Dest = Stdout | File(name: string)

  /** The string written after each file (or file name) from the
      `--separator` and `--no-newlines` flags. */
  function BuildSeparator(separator: string, noNewlines: bool): (r: string)
    ensures noNewlines ==> r == separator
    ensures !noNewlines && separator == "" ==> r == "\n"
    ensures !noNewlines && separator != "" ==> r == "\n" + separator + "\n"
  {
    if noNewlines then separator
    else if separator == "" then "\n"
    else "\n" + separator + "\n"
  }

  /** Unless `--no-newlines` is given, whatever follows a file starts and ends
      on a line of its own. */
  lemma SeparatorFramedByNewlines(separator: string)
    ensures var r := BuildSeparator(separator, false);
      |r| >= 1 && r[0] == '\n' && r[|r| - 1] == '\n'
  {
  }

  /** Distinct `--separator` values give distinct written separators under
      either setting of `--no-newlines`, so the flag value is recoverable. */
  lemma SeparatorInjective(a: string, b: string, noNewlines: bool)
    requires BuildSeparator(a, noNewlines) == BuildSeparator(b, noNewlines)
    ensures a == b
  {
    if !noNewlines && a != "" && b != "" {
      var r := BuildSeparator(a, false);
      assert a == r[1..|r| - 1];
      assert b == r[1..|r| - 1];
    }
  }

  /** A read that ends the copy loop: an error other than EOF, or no bytes. */
  predicate Stops<T>(r: ReadResult<T>) {
    r.err.Failed? || |r.data| == 0
  }

  /** Index of the read that ends the copy loop; `|s|` when the script runs
      out first (the reader then returns zero bytes and EOF). */
  function StopAt<T>(s: Script<T>): (k: nat)
    ensures k <= |s|
    ensures forall i :: 0 <= i < k ==> !Stops(s[i])
    ensures k < |s| ==> Stops(s[k])
  {
    if |s| == 0 || Stops(s[0]) then 0 else 1 + StopAt(s[1..])
  }

  /** The effect of one `writeToFile` call: the `Write` calls it makes, in
      order, and the error it returns. */
  datatype Copy<T> = Copy(writes: seq<seq<T>>, err: Option<string>)

  /** Reference definition of `writeToFile` (cmd/util.go:22-43): the data of
      every read before the stopping read is written, then the separator,
      unless the stopping read failed. */
  function CopyResult<T>(s: Script<T>, separator: seq<T>): Copy<T> {
    var k := StopAt(s);
    var content := Reads(s[..k]);
    if k < |s| && s[k].err.Failed? then Copy(content, Some(s[k].err.message))
    else Copy(content + [separator], None)
  }

  /** All bytes that reached the writer. */
  function Output<T>(c: Copy<T>): seq<T> {
    Flatten(c.writes)
  }

  /** The chunked copy loop of cmd/util.go:22-43. The reader and the writer's
      `Write` calls are explicit; the writer itself cannot fail here. */
  method WriteToFile<T>(src: Script<T>, separator: seq<T>) returns (writes: seq<seq<T>>, err: Option<string>)
    requires FitsBuffer(src)
    ensures Copy(writes, err) == CopyResult(src, separator)
    ensures err.None? ==> |writes| >= 1 && writes[|writes| - 1] == separator
    ensures forall i :: 0 <= i < |writes| - (if err.None? then 1 else 0) ==> 0 < |writes[i]| <= BufferSize
  {
    writes := [];
    var i := 0;
    while true
      invariant 0 <= i <= StopAt(src)
      invariant writes == Reads(src[..i])
      decreases |src| - i
    {
      var r := if i < |src| then src[i] else ReadResult([], EOF);
      if r.err.Failed? {
        return writes, Some(r.err.message);
      }
      if |r.data| == 0 {
        break;
      }
      assert Reads(src[..i + 1]) == writes + [r.data];
      writes := writes + [r.data];
      i := i + 1;
    }
    writes := writes + [separator];
    err := None;
  }

  /** A script whose every read delivers data without error. */
  predicate Clean<T>(s: Script<T>) {
    forall i :: 0 <= i < |s| ==> !s[i].err.Failed? && |s[i].data| > 0
  }

  /** On a reader that delivers `Delivered(s)` and then reaches EOF, the output
      is exactly those bytes followed by the separator. */
  lemma CopyOfCleanScript<T>(s: Script<T>, separator: seq<T>)
    requires Clean(s)
    ensures CopyResult(s, separator).err == None
    ensures Output(CopyResult(s, separator)) == Delivered(s) + separator
  {
    assert s[..|s|] == s;
    StopAtClean(s, |s|);
    var k := StopAt(s);
    assert s[..k] == s;
    FlattenAppend(Reads(s), [separator]);
    assert Flatten([separator]) == Flatten([separator][..0]) + separator;
  }

  /** The loop stops at the first read that returns no bytes: later reads are
      never made. */
  lemma StopsAtFirstEmptyRead<T>(s: Script<T>, k: nat, separator: seq<T>)
    requires k < |s| && !s[k].err.Failed? && |s[k].data| == 0
    requires Clean(s[..k])
    ensures CopyResult(s, separator) == CopyResult(s[..k], separator)
  {
    StopAtClean(s, k);
    StopAtClean(s[..k], k);
  }

  lemma {:induction false} StopAtClean<T>(s: Script<T>, k: nat)
    requires k <= |s| && Clean(s[..k])
    requires k < |s| ==> Stops(s[k])
    ensures StopAt(s) == k
  {
  }

  /** A failing read aborts the copy with its error: only the data of the
      reads before it was written, and the separator was not. */
  lemma FailedReadAborts<T>(s: Script<T>, k: nat, separator: seq<T>)
    requires k < |s| && s[k].err.Failed?
    requires Clean(s[..k])
    ensures CopyResult(s, separator).err == Some(s[k].err.message)
    ensures |CopyResult(s, separator).writes| == k
    ensures Output(CopyResult(s, separator)) == Delivered(s[..k])
  {
    StopAtClean(s, k);
  }

  /** Copying a text: the bytes of `x` in buffer-sized chunks, then the
      separator. */
  lemma CopyOfText<T>(x: seq<T>, separator: seq<T>)
    ensures CopyResult(ChunksOf(x), separator).err == None
    ensures Output(CopyResult(ChunksOf(x), separator)) == x + separator
  {
    var s := ChunksOf(x);
    assert Clean(s);
    CopyOfCleanScript(s, separator);
    ChunksOfDelivers(x);
  }
}

=== FILE: extract.dfy ===
/** The `extract` command (cmd/extract.go): validate the flags, select
    entries, then copy each selected file's content to standard output or
    to output files. */
module Extract {
  import opened Wrappers
  import opened Streams
  import opened CmdUtil
  import opened Zipspy

  /** The command's flags: `--file`, `--out`, `--separator`, `--all`,
      `--no-newlines`. */
  datatype ExtractFlags = ExtractFlags(
    inFiles: seq<string>,
    outFiles: seq<string>,
    separator: string,
    all: bool,
    noNewlines: bool)

  datatype ExtractError =
    | ValidationFailed
    | ClientFailed(cause: ClientError)
    | CountMismatch(input: nat, found: nat)
    | OutputOpenFailed(name: string)
    | EntryOpenFailed(entry: string, message: string)
    | WriteFailed(message: string)

  /** One completed `writeToFile` call: the position of the entry among the
      selected files (the loop's `idx`), its name, where it went, and the
      bytes written (content, then separator). */
  datatype Emit = Emit(pos: nat, entry: string, dest: Dest, bytes: seq<byte>)

  /** A count mismatch that was only logged: (input count, found count). */
  datatype Warning = Warning(input: nat, found: nat)

  /** What a run of the command does: the warning it logged, the completed
      copies in order, and the error it returned. */
  datatype Run = Run(warning: Option<Warning>, output: seq<Emit>, err: Option<ExtractError>)

  /** `validateExtractCommand` (cmd/extract.go:110-120). */
  function ValidateExtract(flags: ExtractFlags): (r: Option<ExtractError>)
    ensures r.Some? ==> r.value == ValidationFailed
    ensures r.None? <==> |flags.outFiles| <= 1 || |flags.outFiles| == |flags.inFiles|
  {
    if |flags.outFiles| > 1 && |flags.outFiles| != |flags.inFiles| then Some(ValidationFailed) else None
  }

  /** `getFiles` (cmd/extract.go:122-129). */
  function SelectFiles(flags: ExtractFlags, c: Client): (r: seq<Entry>)
    ensures flags.all ==> r == c.files
    ensures !flags.all ==> forall e :: e in r ==> e in c.files && e.name in flags.inFiles
  {
    FilesNamedSound(c.files, flags.inFiles);
    if flags.all then AllFiles(c) else FilesNamed(c.files, flags.inFiles)
  }

  /** The found count differs from a non-empty `--file` list (cmd/extract.go:60). */
  predicate Mismatch(flags: ExtractFlags, found: nat) {
    |flags.inFiles| != 0 && |flags.inFiles| != found
  }

  /** `em` records the copy of the non-directory file at position
      `em.pos >= idx`: it went to `outs[em.pos]` when there are several
      outputs and to `single` otherwise, and holds what `writeToFile` wrote
      for that file. */
  predicate Copied(files: seq<Entry>, outs: seq<string>, single: Dest, sep: seq<byte>, idx: nat, em: Emit)
    requires |outs| > 1 ==> |outs| == |files|
  {
    && idx <= em.pos < |files|
    && em.entry == files[em.pos].name
    && !IsDirectoryName(em.entry)
    && em.dest == (if |outs| > 1 then File(outs[em.pos]) else single)
    && files[em.pos].open.Success?
    && em.bytes == Output(CopyResult(files[em.pos].open.value, sep))
  }

  /** The file at position `i` gets through the loop body without error: a
      directory is skipped, any other file opens (cmd/extract.go:81-84), its
      own output opens when there are several (cmd/extract.go:87-93), and
      `writeToFile` returns no error (cmd/extract.go:94-96). */
  predicate CopiesCleanly(files: seq<Entry>, i: nat, outs: seq<string>, sep: seq<byte>, outputOpens: string -> bool)
    requires i < |files|
    requires |outs| > 1 ==> |outs| == |files|
  {
    || IsDirectoryName(files[i].name)
    || (&& files[i].open.Success?
        && (|outs| > 1 ==> outputOpens(outs[i]))
        && CopyResult(files[i].open.value, sep).err.None?)
  }

  /** Every file from position `idx` on copies cleanly. */
  predicate CopiesCleanlyFrom(files: seq<Entry>, idx: nat, outs: seq<string>, sep: seq<byte>, outputOpens: string -> bool)
    requires |outs| > 1 ==> |outs| == |files|
  {
    forall i :: idx <= i < |files| ==> CopiesCleanly(files, i, outs, sep, outputOpens)
  }

  /** The first position from `idx` on whose file does not copy cleanly, or
      `|files|` when there is none. */
  function FirstFailure(files: seq<Entry>, idx: nat, outs: seq<string>, sep: seq<byte>, outputOpens: string -> bool): (p: nat)
    requires idx <= |files|
    requires |outs| > 1 ==> |outs| == |files|
    ensures idx <= p <= |files|
    ensures forall i :: idx <= i < p ==> CopiesCleanly(files, i, outs, sep, outputOpens)
    ensures p < |files| ==> !CopiesCleanly(files, p, outs, sep, outputOpens)
    decreases |files| - idx
  {
    if idx == |files| || !CopiesCleanly(files, idx, outs, sep, outputOpens) then idx
    else FirstFailure(files, idx + 1, outs, sep, outputOpens)
  }

  /** The loop body for one non-directory file (cmd/extract.go:81-96): the
      copy it completes, or the error that ends the loop. */
  function CopyEntry(files: seq<Entry>, idx: nat, outs: seq<string>, single: Dest, sep: seq<byte>, outputOpens: string -> bool): (r: Result<Emit, ExtractError>)
    requires idx < |files| && !IsDirectoryName(files[idx].name)
    requires |outs| > 1 ==> |outs| == |files|
    ensures r.Success? <==> CopiesCleanly(files, idx, outs, sep, outputOpens)
    ensures r.Success? ==> r.value.pos == idx && Copied(files, outs, single, sep, idx, r.value)
    ensures r.Failure? && r.error.OutputOpenFailed? ==> |outs| > 1 && !outputOpens(r.error.name)
    ensures r.Failure? ==> r.error.OutputOpenFailed? || r.error.EntryOpenFailed? || r.error.WriteFailed?
    ensures files[idx].open.Failure? ==> r == Failure(EntryOpenFailed(files[idx].name, files[idx].open.error))
    ensures files[idx].open.Success? && |outs| > 1 && !outputOpens(outs[idx]) ==> r == Failure(OutputOpenFailed(outs[idx]))
    ensures files[idx].open.Success? && (|outs| > 1 ==> outputOpens(outs[idx])) && CopyResult(files[idx].open.value, sep).err.Some? ==>
      r == Failure(WriteFailed(CopyResult(files[idx].open.value, sep).err.value))
  {
    var f := files[idx];
    match f.open
    case Failure(m) => Failure(EntryOpenFailed(f.name, m))
    case Success(script) =>
      if |outs| > 1 && !outputOpens(outs[idx]) then Failure(OutputOpenFailed(outs[idx]))
      else
        var copy := CopyResult(script, sep);
        match copy.err
        case Some(m) => Failure(WriteFailed(m))
        case None => Success(Emit(idx, f.name, if |outs| > 1 then File(outs[idx]) else single, Output(copy)))
  }

  /** The loop of cmd/extract.go:76-97 from position `idx` on. `single` is the
      destination used unless there are several outputs. The first file that
      does not copy cleanly ends the loop with its error. */
  function CopyEntries(files: seq<Entry>, idx: nat, outs: seq<string>, single: Dest, sep: seq<byte>, outputOpens: string -> bool): (r: Run)
    requires idx <= |files|
    requires |outs| > 1 ==> |outs| == |files|
    ensures r.warning.None?
    ensures forall k :: 0 <= k < |r.output| ==> Copied(files, outs, single, sep, idx, r.output[k])
    ensures forall k, l :: 0 <= k < l < |r.output| ==> r.output[k].pos < r.output[l].pos
    ensures r.err.Some? && r.err.value.OutputOpenFailed? ==> |outs| > 1 && !outputOpens(r.err.value.name)
    ensures r.err.Some? ==> r.err.value.OutputOpenFailed? || r.err.value.EntryOpenFailed? || r.err.value.WriteFailed?
    ensures r.err.None? <==> CopiesCleanlyFrom(files, idx, outs, sep, outputOpens)
    decreases |files| - idx
  {
    if idx == |files| then Run(None, [], None)
    else if IsDirectoryName(files[idx].name) then
      assert CopiesCleanly(files, idx, outs, sep, outputOpens);
      CopyEntries(files, idx + 1, outs, single, sep, outputOpens)
    else
      match CopyEntry(files, idx, outs, single, sep, outputOpens)
      case Failure(e) => Run(None, [], Some(e))
      case Success(em) =>
        var rest := CopyEntries(files, idx + 1, outs, single, sep, outputOpens);
        assert forall k :: 0 <= k < |rest.output| ==> Copied(files, outs, single, sep, idx, rest.output[k]);
        Run(None, [em] + rest.output, rest.err)
  }

  /** Where every copy goes unless there are several outputs: the one
      `--out` file, or standard output (cmd/extract.go:64-75). */
  function SingleDest(outs: seq<string>): (d: Dest)
    ensures |outs| == 1 <==> d.File?
    ensures d.File? ==> d == File(outs[0])
  {
    if |outs| == 1 then File(outs[0]) else Stdout
  }

  /** The `extract` command after the root pre-run: validation
      (cmd/extract.go:43-52) and `RunE` (cmd/extract.go:53-100). `client` is
      the result of `zipspy.NewClient`; `outputOpens` says which output files
      `os.OpenFile` can open. */
  function RunExtract(flags: ExtractFlags, client: Result<Client, ClientError>, outputOpens: string -> bool): (r: Run)
    ensures ValidateExtract(flags).Some? ==> r == Run(None, [], Some(ValidationFailed))
    ensures ValidateExtract(flags).None? && client.Failure? ==> r == Run(None, [], Some(ClientFailed(client.error)))
    ensures ValidateExtract(flags).None? && client.Success? ==>
      var found := |SelectFiles(flags, client.value)|;
      && (Mismatch(flags, found) && |flags.outFiles| > 1 ==> r == Run(None, [], Some(CountMismatch(|flags.inFiles|, found))))
      && (Mismatch(flags, found) && |flags.outFiles| <= 1 ==> r.warning == Some(Warning(|flags.inFiles|, found)))
      && (!Mismatch(flags, found) ==> r.warning.None?)
    ensures forall k :: 0 <= k < |r.output| ==> !IsDirectoryName(r.output[k].entry)
    ensures |flags.outFiles| == 0 ==> forall k :: 0 <= k < |r.output| ==> r.output[k].dest == Stdout
    ensures |flags.outFiles| == 1 ==> forall k :: 0 <= k < |r.output| ==> r.output[k].dest == File(flags.outFiles[0])
    ensures client.Failure? ==> r.output == []
    ensures client.Success? ==>
      var files := SelectFiles(flags, client.value);
      forall k :: 0 <= k < |r.output| ==>
        && r.output[k].pos < |files|
        && r.output[k].entry == files[r.output[k].pos].name
        && (|flags.outFiles| > 1 ==> r.output[k].pos < |flags.outFiles| && r.output[k].dest == File(flags.outFiles[r.output[k].pos]))
    ensures forall k, l :: 0 <= k < l < |r.output| ==> r.output[k].pos < r.output[l].pos
    ensures r.err.Some? && r.err.value.OutputOpenFailed? ==> !outputOpens(r.err.value.name)
    ensures ValidateExtract(flags).None? && client.Success? && |flags.outFiles| == 1 && !outputOpens(flags.outFiles[0]) ==>
      r.err == Some(OutputOpenFailed(flags.outFiles[0])) && r.output == []
  {
    if ValidateExtract(flags).Some? then Run(None, [], Some(ValidationFailed))
    else
      match client
      case Failure(e) => Run(None, [], Some(ClientFailed(e)))
      case Success(c) =>
        var files := SelectFiles(flags, c);
        var outs := flags.outFiles;
        if Mismatch(flags, |files|) && |outs| > 1 then
          Run(None, [], Some(CountMismatch(|flags.inFiles|, |files|)))
        else
          var warning := if Mismatch(flags, |files|) then Some(Warning(|flags.inFiles|, |files|)) else None;
          if |outs| == 1 && !outputOpens(outs[0]) then Run(warning, [], Some(OutputOpenFailed(outs[0])))
          else
            var single := SingleDest(outs);
            var sep := Bytes(BuildSeparator(flags.separator, flags.noNewlines));
            var copied := CopyEntries(files, 0, outs, single, sep, outputOpens);
            Run(warning, copied.output, copied.err)
  }

  /** Once validation, the mismatch check and the single output's open let
      the loop run (cmd/extract.go:59-73), the run fails exactly when some
      selected file does not copy cleanly (cmd/extract.go:76-97). */
  lemma RunExtractFails(flags: ExtractFlags, c: Client, outputOpens: string -> bool)
    requires ValidateExtract(flags).None?
    requires !(Mismatch(flags, |SelectFiles(flags, c)|) && |flags.outFiles| > 1)
    requires !(|flags.outFiles| == 1 && !outputOpens(flags.outFiles[0]))
    ensures RunExtract(flags, Success(c), outputOpens).err.None? <==>
      CopiesCleanlyFrom(SelectFiles(flags, c), 0, flags.outFiles, Bytes(BuildSeparator(flags.separator, flags.noNewlines)), outputOpens)
  {
  }

  /** A run that ends without error has copied every selected file that is
      not a directory. */
  lemma RunExtractCovers(flags: ExtractFlags, c: Client, outputOpens: string -> bool)
    ensures var r := RunExtract(flags, Success(c), outputOpens);
      r.err.None? ==> CoversFrom(SelectFiles(flags, c), 0, r.output)
  {
    var files, outs := SelectFiles(flags, c), flags.outFiles;
    if ValidateExtract(flags).None? && !(Mismatch(flags, |files|) && |outs| > 1) && !(|outs| == 1 && !outputOpens(outs[0])) {
      var sep := Bytes(BuildSeparator(flags.separator, flags.noNewlines));
      RunExtractLoop(flags, c, outputOpens);
      CopyEntriesCovers(files, 0, outs, SingleDest(outs), sep, outputOpens);
    }
  }

  /** After a failure, the run stopped at the first file of the selection that
      does not copy cleanly, with that file's error, having written nothing
      from that file on. */
  lemma RunExtractStopsAtFirstFailure(flags: ExtractFlags, c: Client, outputOpens: string -> bool)
    requires ValidateExtract(flags).None?
    requires !(Mismatch(flags, |SelectFiles(flags, c)|) && |flags.outFiles| > 1)
    requires !(|flags.outFiles| == 1 && !outputOpens(flags.outFiles[0]))
    ensures |flags.outFiles| > 1 ==> |flags.outFiles| == |SelectFiles(flags, c)|
    ensures var r := RunExtract(flags, Success(c), outputOpens);
      var sep := Bytes(BuildSeparator(flags.separator, flags.noNewlines));
      var files := SelectFiles(flags, c);
      r.err.Some? ==> StopsAt(files, 0, FirstFailure(files, 0, flags.outFiles, sep, outputOpens), flags.outFiles, SingleDest(flags.outFiles), sep, outputOpens, r)
  {
    var files, outs := SelectFiles(flags, c), flags.outFiles;
    var sep := Bytes(BuildSeparator(flags.separator, flags.noNewlines));
    RunExtractLoop(flags, c, outputOpens);
    var copied := CopyEntries(files, 0, outs, SingleDest(outs), sep, outputOpens);
    CopyEntriesStops(files, 0, outs, SingleDest(outs), sep, outputOpens);
    if copied.err.Some? {
      StopsAtSameRun(files, 0, FirstFailure(files, 0, outs, sep, outputOpens), outs, SingleDest(outs), sep, outputOpens,
        copied, RunExtract(flags, Success(c), outputOpens));
    }
  }

  /** Once validation, the mismatch check and the single output's open let
      the loop run, the run's copies and error are the loop's. */
  lemma RunExtractLoop(flags: ExtractFlags, c: Client, outputOpens: string -> bool)
    requires ValidateExtract(flags).None?
    requires !(Mismatch(flags, |SelectFiles(flags, c)|) && |flags.outFiles| > 1)
    requires !(|flags.outFiles| == 1 && !outputOpens(flags.outFiles[0]))
    ensures |flags.outFiles| > 1 ==> |flags.outFiles| == |SelectFiles(flags, c)|
    ensures var r, sep := RunExtract(flags, Success(c), outputOpens), Bytes(BuildSeparator(flags.separator, flags.noNewlines));
      var copied := CopyEntries(SelectFiles(flags, c), 0, flags.outFiles, SingleDest(flags.outFiles), sep, outputOpens);
      r.output == copied.output && r.err == copied.err
  {
  }

  /** Once validation has passed and the mismatch check has let the loop run
      with several outputs, input, found and output counts agree, so
      `outFiles[idx]` is in range for every found file. */
  lemma OutputIndexInRange(flags: ExtractFlags, c: Client)
    requires ValidateExtract(flags).None?
    requires |flags.outFiles| > 1
    requires !Mismatch(flags, |SelectFiles(flags, c)|)
    ensures |SelectFiles(flags, c)| == |flags.inFiles| == |flags.outFiles|
  {
  }

  /** With `--all` every entry is selected, directories included, whatever
      `--file` says; otherwise exactly the entries named by `--file`. */
  lemma SelectionRule(flags: ExtractFlags, c: Client, e: Entry)
    ensures flags.all ==> SelectFiles(flags, c) == c.files
    ensures !flags.all ==> multiset(SelectFiles(flags, c))[e] == multiset(flags.inFiles)[e.name] * multiset(c.files)[e]
  {
    if !flags.all {
      FilesNamedCount(c.files, flags.inFiles, e);
    }
  }

  /** Concatenation of the bytes of a sequence of copies. */
  function AllBytes(output: seq<Emit>): seq<byte> {
    if |output| == 0 then [] else output[0].bytes + AllBytes(output[1..])
  }

  /** Every non-directory file opens and delivers its content without error. */
  predicate Readable(files: seq<Entry>) {
    forall i :: 0 <= i < |files| && !IsDirectoryName(files[i].name) ==>
      files[i].open.Success? && Clean(files[i].open.value)
  }

  /** Reference output of a fully successful copy: each non-directory file's
      content followed by the separator, in selection order. */
  function Contents(files: seq<Entry>, sep: seq<byte>): seq<byte>
    requires Readable(files)
  {
    if |files| == 0 then []
    else
      var tail := Contents(files[1..], sep);
      if IsDirectoryName(files[0].name) then tail else Delivered(files[0].open.value) + sep + tail
  }

  /** When every non-directory file is readable and every output opens, the
      loop completes and writes each file's content followed by the separator,
      in order, skipping directories. */
  lemma {:induction false} CopyEntriesContents(files: seq<Entry>, idx: nat, outs: seq<string>, single: Dest, sep: seq<byte>, outputOpens: string -> bool)
    requires idx <= |files|
    requires |outs| > 1 ==> |outs| == |files|
    requires Readable(files)
    requires forall n :: n in outs ==> outputOpens(n)
    ensures Readable(files[idx..])
    ensures CopyEntries(files, idx, outs, single, sep, outputOpens).err.None?
    ensures AllBytes(CopyEntries(files, idx, outs, single, sep, outputOpens).output) == Contents(files[idx..], sep)
    decreases |files| - idx
  {
    assert Readable(files[idx..]) by {
      forall i | 0 <= i < |files[idx..]| && !IsDirectoryName(files[idx..][i].name)
        ensures files[idx..][i].open.Success? && Clean(files[idx..][i].open.value)
      {
        assert files[idx..][i] == files[idx + i];
      }
    }
    if idx < |files| {
      CopyEntriesContents(files, idx + 1, outs, single, sep, outputOpens);
      assert files[idx..][1..] == files[idx + 1..];
      var f := files[idx];
      if !IsDirectoryName(f.name) {
        CopyOfCleanScript(f.open.value, sep);
        var r := CopyEntries(files, idx, outs, single, sep, outputOpens);
        var rest := CopyEntries(files, idx + 1, outs, single, sep, outputOpens);
        assert r.output[1..] == rest.output;
      }
    }
  }

  /** The loop from `idx` stopped at position `p`: every file before `p`
      copied cleanly, the file at `p` did not and its error is the run's, and
      nothing from `p` on was written (cmd/extract.go:83, 90, 95 return at
      once). */
  predicate StopsAt(files: seq<Entry>, idx: nat, p: nat, outs: seq<string>, single: Dest, sep: seq<byte>, outputOpens: string -> bool, r: Run)
    requires |outs| > 1 ==> |outs| == |files|
  {
    && idx <= p < |files|
    && (forall i :: idx <= i < p ==> CopiesCleanly(files, i, outs, sep, outputOpens))
    && !CopiesCleanly(files, p, outs, sep, outputOpens)
    && r.err == Some(CopyEntry(files, p, outs, single, sep, outputOpens).error)
    && forall k :: 0 <= k < |r.output| ==> r.output[k].pos < p
  }

  /** A loop that fails stopped at the first file that does not copy cleanly. */
  lemma {:induction false} CopyEntriesStops(files: seq<Entry>, idx: nat, outs: seq<string>, single: Dest, sep: seq<byte>, outputOpens: string -> bool)
    requires idx <= |files|
    requires |outs| > 1 ==> |outs| == |files|
    ensures CopyEntries(files, idx, outs, single, sep, outputOpens).err.Some? ==>
      StopsAt(files, idx, FirstFailure(files, idx, outs, sep, outputOpens), outs, single, sep, outputOpens, CopyEntries(files, idx, outs, single, sep, outputOpens))
    decreases |files| - idx
  {
    if idx < |files| {
      if !CopiesCleanly(files, idx, outs, sep, outputOpens) {
        StopsHere(files, idx, outs, single, sep, outputOpens);
      } else if CopyEntries(files, idx, outs, single, sep, outputOpens).err.Some? {
        CopyEntriesStops(files, idx + 1, outs, single, sep, outputOpens);
        StopsLater(files, idx, FirstFailure(files, idx + 1, outs, sep, outputOpens), outs, single, sep, outputOpens);
      }
    }
  }

  /** A file that does not copy cleanly stops the loop at once. */
  lemma StopsHere(files: seq<Entry>, idx: nat, outs: seq<string>, single: Dest, sep: seq<byte>, outputOpens: string -> bool)
    requires idx < |files|
    requires |outs| > 1 ==> |outs| == |files|
    requires !CopiesCleanly(files, idx, outs, sep, outputOpens)
    ensures StopsAt(files, idx, idx, outs, single, sep, outputOpens, CopyEntries(files, idx, outs, single, sep, outputOpens))
  {
  }

  /** Past a file that copies cleanly, the loop stops where the rest of it
      stops. */
  lemma StopsLater(files: seq<Entry>, idx: nat, p: nat, outs: seq<string>, single: Dest, sep: seq<byte>, outputOpens: string -> bool)
    requires idx < |files|
    requires |outs| > 1 ==> |outs| == |files|
    requires CopiesCleanly(files, idx, outs, sep, outputOpens)
    requires StopsAt(files, idx + 1, p, outs, single, sep, outputOpens, CopyEntries(files, idx + 1, outs, single, sep, outputOpens))
    ensures StopsAt(files, idx, p, outs, single, sep, outputOpens, CopyEntries(files, idx, outs, single, sep, outputOpens))
  {
    var r := CopyEntries(files, idx, outs, single, sep, outputOpens);
    var rest := CopyEntries(files, idx + 1, outs, single, sep, outputOpens);
    if IsDirectoryName(files[idx].name) {
      assert r == rest;
      StopsAtSkip(files, idx, p, outs, single, sep, outputOpens, r);
    } else {
      CopyEntriesStep(files, idx, outs, single, sep, outputOpens);
      StopsAtCons(files, idx, p, outs, single, sep, outputOpens, r, rest);
    }
  }

  /** A file that copies cleanly without being written moves the stop
      position's range back by one. */
  lemma StopsAtSkip(files: seq<Entry>, idx: nat, p: nat, outs: seq<string>, single: Dest, sep: seq<byte>, outputOpens: string -> bool, r: Run)
    requires idx < |files|
    requires |outs| > 1 ==> |outs| == |files|
    requires CopiesCleanly(files, idx, outs, sep, outputOpens)
    requires StopsAt(files, idx + 1, p, outs, single, sep, outputOpens, r)
    ensures StopsAt(files, idx, p, outs, single, sep, outputOpens, r)
  {
  }

  /** Prepending the copy of a clean file at `idx` keeps every copy before
      the stop position. */
  lemma StopsAtCons(files: seq<Entry>, idx: nat, p: nat, outs: seq<string>, single: Dest, sep: seq<byte>, outputOpens: string -> bool, r: Run, rest: Run)
    requires idx < |files|
    requires |outs| > 1 ==> |outs| == |files|
    requires CopiesCleanly(files, idx, outs, sep, outputOpens)
    requires StopsAt(files, idx + 1, p, outs, single, sep, outputOpens, rest)
    requires |r.output| > 0 && r.output[0].pos == idx && r.output[1..] == rest.output && r.err == rest.err
    ensures StopsAt(files, idx, p, outs, single, sep, outputOpens, r)
  {
  }

  /** Where the loop stopped depends only on the error and the copies. */
  lemma StopsAtSameRun(files: seq<Entry>, idx: nat, p: nat, outs: seq<string>, single: Dest, sep: seq<byte>, outputOpens: string -> bool, a: Run, b: Run)
    requires |outs| > 1 ==> |outs| == |files|
    requires StopsAt(files, idx, p, outs, single, sep, outputOpens, a)
    requires a.err == b.err && a.output == b.output
    ensures StopsAt(files, idx, p, outs, single, sep, outputOpens, b)
  {
  }

  /** Some copy in `out` is of the file at position `i`. */
  predicate Covers(out: seq<Emit>, i: nat) {
    exists k :: 0 <= k < |out| && out[k].pos == i
  }

  /** One step of the loop over a file that copies cleanly: its copy comes
      first, then the copies of the rest, and the rest decides the error. */
  lemma CopyEntriesStep(files: seq<Entry>, idx: nat, outs: seq<string>, single: Dest, sep: seq<byte>, outputOpens: string -> bool)
    requires idx < |files|
    requires |outs| > 1 ==> |outs| == |files|
    requires !IsDirectoryName(files[idx].name)
    requires CopiesCleanly(files, idx, outs, sep, outputOpens)
    ensures var r, rest := CopyEntries(files, idx, outs, single, sep, outputOpens), CopyEntries(files, idx + 1, outs, single, sep, outputOpens);
      && |r.output| > 0 && r.output[0].pos == idx
      && r.output[1..] == rest.output
      && r.err == rest.err
  {
  }

  /** Every non-directory file from `idx` on has a copy in `out`. */
  predicate CoversFrom(files: seq<Entry>, idx: nat, out: seq<Emit>) {
    forall i :: idx <= i < |files| && !IsDirectoryName(files[i].name) ==> Covers(out, i)
  }

  /** A loop that ends without error has copied every non-directory file from
      `idx` on. */
  lemma {:induction false} CopyEntriesCovers(files: seq<Entry>, idx: nat, outs: seq<string>, single: Dest, sep: seq<byte>, outputOpens: string -> bool)
    requires idx <= |files|
    requires |outs| > 1 ==> |outs| == |files|
    ensures var r := CopyEntries(files, idx, outs, single, sep, outputOpens);
      r.err.None? ==> CoversFrom(files, idx, r.output)
    decreases |files| - idx
  {
    var r := CopyEntries(files, idx, outs, single, sep, outputOpens);
    if idx == |files| {
      assert CoversFrom(files, idx, r.output);
    } else if r.err.None? {
      assert CopiesCleanly(files, idx, outs, sep, outputOpens);
      CopyEntriesCovers(files, idx + 1, outs, single, sep, outputOpens);
      CoversStep(files, idx, outs, single, sep, outputOpens);
    }
  }

  /** Coverage from `idx + 1` on extends to `idx` when position `idx` copies
      cleanly. */
  lemma CoversStep(files: seq<Entry>, idx: nat, outs: seq<string>, single: Dest, sep: seq<byte>, outputOpens: string -> bool)
    requires idx < |files|
    requires |outs| > 1 ==> |outs| == |files|
    requires CopiesCleanly(files, idx, outs, sep, outputOpens)
    requires CoversFrom(files, idx + 1, CopyEntries(files, idx + 1, outs, single, sep, outputOpens).output)
    ensures CoversFrom(files, idx, CopyEntries(files, idx, outs, single, sep, outputOpens).output)
  {
    var r := CopyEntries(files, idx, outs, single, sep, outputOpens);
    var rest := CopyEntries(files, idx + 1, outs, single, sep, outputOpens);
    if IsDirectoryName(files[idx].name) {
      assert r == rest;
      CoversSkip(files, idx, r.output);
    } else {
      CopyEntriesStep(files, idx, outs, single, sep, outputOpens);
      CoversCons(files, idx, r.output, rest.output);
    }
  }

  /** A directory at `idx` needs no copy. */
  lemma CoversSkip(files: seq<Entry>, idx: nat, out: seq<Emit>)
    requires idx < |files| && IsDirectoryName(files[idx].name)
    requires CoversFrom(files, idx + 1, out)
    ensures CoversFrom(files, idx, out)
  {
  }

  /** Prepending the copy of position `idx` extends what is covered to `idx`. */
  lemma CoversCons(files: seq<Entry>, idx: nat, out: seq<Emit>, rest: seq<Emit>)
    requires |out| > 0 && out[0].pos == idx && out[1..] == rest
    requires CoversFrom(files, idx + 1, rest)
    ensures CoversFrom(files, idx, out)
  {
  }

  /** Several outputs: when the loop runs, every selected file is readable and
      every output opens, the run succeeds and the non-directory file at
      position `i` is written, content then separator, to `outFiles[i]`. */
  lemma ExtractSeveralOutputs(flags: ExtractFlags, c: Client, outputOpens: string -> bool)
    requires ValidateExtract(flags).None?
    requires |flags.outFiles| > 1 && forall n :: n in flags.outFiles ==> outputOpens(n)
    requires !Mismatch(flags, |SelectFiles(flags, c)|)
    requires Readable(SelectFiles(flags, c))
    ensures var files, r := SelectFiles(flags, c), RunExtract(flags, Success(c), outputOpens);
      var sep := Bytes(BuildSeparator(flags.separator, flags.noNewlines));
      && r.err.None?
      && |files| == |flags.outFiles|
      && forall i :: 0 <= i < |files| && !IsDirectoryName(files[i].name) ==>
        exists k :: && 0 <= k < |r.output|
                    && r.output[k].pos == i
                    && r.output[k].dest == File(flags.outFiles[i])
                    && r.output[k].bytes == Delivered(files[i].open.value) + sep
  {
    var files := SelectFiles(flags, c);
    var sep := Bytes(BuildSeparator(flags.separator, flags.noNewlines));
    var outs := flags.outFiles;
    var r := RunExtract(flags, Success(c), outputOpens);
    RunExtractLoop(flags, c, outputOpens);
    assert SingleDest(outs) == Stdout;
    CopyEntriesContents(files, 0, outs, Stdout, sep, outputOpens);
    CopyEntriesCovers(files, 0, outs, Stdout, sep, outputOpens);
    forall i | 0 <= i < |files| && !IsDirectoryName(files[i].name)
      ensures exists k :: && 0 <= k < |r.output|
                          && r.output[k].pos == i
                          && r.output[k].dest == File(outs[i])
                          && r.output[k].bytes == Delivered(files[i].open.value) + sep
    {
      assert Covers(r.output, i);
      var k :| 0 <= k < |r.output| && r.output[k].pos == i;
      assert Copied(files, outs, Stdout, sep, 0, r.output[k]);
      CopyOfCleanScript(files[i].open.value, sep);
    }
  }

  /** When every `--file` value names exactly one entry, the outputs line up
      with the queries: the file named by the i-th `--file` goes to the i-th
      `--out`. */
  lemma OutputsFollowQueries(flags: ExtractFlags, c: Client, outputOpens: string -> bool)
    requires !flags.all && ValidateExtract(flags).None? && |flags.outFiles| > 1
    requires forall i :: 0 <= i < |flags.inFiles| ==> |Matching(c.files, NameIs(flags.inFiles[i]))| == 1
    ensures !Mismatch(flags, |SelectFiles(flags, c)|)
    ensures var r := RunExtract(flags, Success(c), outputOpens);
      forall k :: 0 <= k < |r.output| ==>
        && r.output[k].pos < |flags.inFiles| == |flags.outFiles|
        && r.output[k].entry == flags.inFiles[r.output[k].pos]
        && r.output[k].dest == File(flags.outFiles[r.output[k].pos])
  {
    FilesNamedOnePerQuery(c.files, flags.inFiles);
  }

  /** The mismatch check compares totals only: with two entries named `a`
      and `-f a -o d1 -f b -o d2` for a missing `b`, the run succeeds without
      a warning, and the second `a` is written to `d2`, the output meant for
      `b`. */
  lemma TotalsOnlyMismatchCheck(a: string, b: string, d1: string, d2: string)
    requires a != b && !IsDirectoryName(a)
    ensures var files := [Entry(a, Success([])), Entry(a, Success([]))];
      var flags := ExtractFlags([a, b], [d1, d2], "", false, false);
      var r := RunExtract(flags, Success(Client(files)), (n: string) => true);
      && r.warning.None? && r.err.None?
      && |r.output| == 2
      && r.output[1].entry == a && r.output[1].dest == File(d2)
  {
    var files := [Entry(a, Success([])), Entry(a, Success([]))];
    var flags := ExtractFlags([a, b], [d1, d2], "", false, false);
    var opens := (n: string) => true;
    DuplicateLookup(files, a, b);
    assert SelectFiles(flags, Client(files)) == files;
    assert Clean<byte>([]);
    ExtractSeveralOutputs(flags, Client(files), opens);
    var r := RunExtract(flags, Success(Client(files)), opens);
    assert Covers(r.output, 0) && Covers(r.output, 1);
    BothPositions(r.output);
  }

  /** Looking up `a` then a missing `b` in entries all named `a` returns every
      entry: the count equals the number of queries only when there are two. */
  lemma DuplicateLookup(files: seq<Entry>, a: string, b: string)
    requires a != b
    requires forall i :: 0 <= i < |files| ==> files[i].name == a
    ensures FilesNamed(files, [a, b]) == files
  {
    MatchingEvery(files, NameIs(a));
    MatchingAbsent(files, b);
    assert FilesNamed(files, [a]) == files by {
      assert [a][..0] == [];
    }
    assert [a, b][..1] == [a];
  }

  /** Copies at strictly increasing positions are at most as many as the
      positions available below `bound`. */
  lemma {:induction false} IncreasingPositionsBound(out: seq<Emit>, bound: nat)
    requires forall k :: 0 <= k < |out| ==> out[k].pos < bound
    requires forall k, l :: 0 <= k < l < |out| ==> out[k].pos < out[l].pos
    ensures |out| <= bound
    decreases |out|
  {
    if |out| > 0 {
      var init := out[..|out| - 1];
      var last := out[|out| - 1].pos;
      assert forall k :: 0 <= k < |init| ==> init[k].pos < last by {
        forall k | 0 <= k < |init|
          ensures init[k].pos < last
        {
          assert init[k] == out[k];
        }
      }
      IncreasingPositionsBound(init, last);
    }
  }

  /** Copies at strictly increasing positions below 2 that cover both 0 and 1
      are exactly two, in that order. */
  lemma BothPositions(out: seq<Emit>)
    requires forall k :: 0 <= k < |out| ==> out[k].pos < 2
    requires forall k, l :: 0 <= k < l < |out| ==> out[k].pos < out[l].pos
    requires Covers(out, 0) && Covers(out, 1)
    ensures |out| == 2 && out[0].pos == 0 && out[1].pos == 1
  {
    IncreasingPositionsBound(out, 2);
    var k1 :| 0 <= k1 < |out| && out[k1].pos == 1;
    assert k1 > 0;
  }

  /** End to end: with zero outputs or one output that opens, a readable
      selection is written in full to that single destination. */
  lemma ExtractContents(flags: ExtractFlags, c: Client, outputOpens: string -> bool)
    requires ValidateExtract(flags).None?
    requires |flags.outFiles| <= 1 && forall n :: n in flags.outFiles ==> outputOpens(n)
    requires Readable(SelectFiles(flags, c))
    ensures var r := RunExtract(flags, Success(c), outputOpens);
      && r.err.None?
      && AllBytes(r.output) == Contents(SelectFiles(flags, c), Bytes(BuildSeparator(flags.separator, flags.noNewlines)))
  {
    var files := SelectFiles(flags, c);
    var single := if |flags.outFiles| == 1 then File(flags.outFiles[0]) else Stdout;
    CopyEntriesContents(files, 0, flags.outFiles, single, Bytes(BuildSeparator(flags.separator, flags.noNewlines)), outputOpens);
    assert files[0..] == files;
  }

  /** Directory entries are never opened: what opening them would yield does
      not affect the run. */
  lemma {:induction false} DirectoriesNeverOpened(files: seq<Entry>, files': seq<Entry>, idx: nat, outs: seq<string>, single: Dest, sep: seq<byte>, outputOpens: string -> bool)
    requires idx <= |files| == |files'|
    requires |outs| > 1 ==> |outs| == |files|
    requires forall i :: 0 <= i < |files| ==> files[i].name == files'[i].name
    requires forall i :: 0 <= i < |files| && !IsDirectoryName(files[i].name) ==> files[i] == files'[i]
    ensures CopyEntries(files, idx, outs, single, sep, outputOpens) == CopyEntries(files', idx, outs, single, sep, outputOpens)
    decreases |files| - idx
  {
    if idx < |files| {
      DirectoriesNeverOpened(files, files', idx + 1, outs, single, sep, outputOpens);
    }
  }

  /** The name the open-error message of cmd/extract.go:90 reports, as
      written: always the first output, whichever output failed to open. */
  function OpenErrorNameAsWritten(outs: seq<string>, idx: nat): (name: string)
    requires idx < |outs|
    ensures name in outs
  {
    outs[0]
  }

  /** The as-written message blames an output that opened fine: with outputs
      `a.txt` and `b.txt` where only `b.txt` cannot be opened, it names
      `a.txt`. The model reports `outs[idx]`, which `RunExtract` proves is a
      file that failed to open. */
  lemma OpenErrorNameAsWrittenMisreports()
    ensures var outs := ["a.txt", "b.txt"];
      var opens := (n: string) => n != "b.txt";
      && !opens(outs[1])
      && opens(OpenErrorNameAsWritten(outs, 1))
  {
  }
}

=== FILE: list.dfy ===
/** The `list` command (cmd/list.go): write the name of every entry, each
    followed by the separator, to standard output or to a file. */
module List {
  import opened Wrappers
  import opened Streams
  import opened CmdUtil
  import opened Zipspy

  /** The command's flags: `--out`, `--include-directory-names`,
      `--separator`, `--no-newlines`. */
  datatype ListFlags = ListFlags(out: string, includeDirectoryNames: bool, separator: string, noNewlines: bool)

  datatype ListError = ClientFailed(cause: ClientError) | OutputOpenFailed(name: string) | WriteFailed(message: string)

  /** What a successful run wrote, and where. */
  datatype Listing = Listing(dest: Dest, bytes: seq<byte>)

  /** The entry is listed: directories only with `--include-directory-names`. */
  predicate Listed(e: Entry, includeDirectoryNames: bool) {
    includeDirectoryNames || !IsDirectoryName(e.name)
  }

  /** The loop of cmd/list.go:41-50: each listed name is copied through
      `writeToFile` from a `strings.Reader` over it. */
  function WriteNames(files: seq<Entry>, includeDirectoryNames: bool, sep: seq<byte>): (r: Result<seq<byte>, string>)
    ensures r.Success?
  {
    if |files| == 0 then Success([])
    else if !Listed(files[0], includeDirectoryNames) then WriteNames(files[1..], includeDirectoryNames, sep)
    else
      // A string reader never fails, so neither does the copy.
      CopyOfText(Bytes(files[0].name), sep);
      var copy := CopyResult(ChunksOf(Bytes(files[0].name)), sep);
      match copy.err
      case Some(m) => Failure(m)
      case None =>
        Success(Output(copy) + WriteNames(files[1..], includeDirectoryNames, sep).value)
  }

  /** `RunE` of cmd/list.go:27-52. `client` is the result of
      `zipspy.NewClient`; `outputOpens` says whether `os.OpenFile` can open
      the `--out` file. */
  function RunList(flags: ListFlags, client: Result<Client, ClientError>, outputOpens: string -> bool): (r: Result<Listing, ListError>)
    ensures client.Failure? ==> r == Failure(ClientFailed(client.error))
    ensures client.Success? && flags.out != "" && !outputOpens(flags.out) ==> r == Failure(OutputOpenFailed(flags.out))
    ensures r.Success? ==> r.value.dest == if flags.out == "" then Stdout else File(flags.out)
  {
    match client
    case Failure(e) => Failure(ClientFailed(e))
    case Success(c) =>
      if flags.out != "" && !outputOpens(flags.out) then Failure(OutputOpenFailed(flags.out))
      else
        var dest := if flags.out == "" then Stdout else File(flags.out);
        var sep := Bytes(BuildSeparator(flags.separator, flags.noNewlines));
        match WriteNames(AllFiles(c), flags.includeDirectoryNames, sep)
        case Failure(m) => Failure(WriteFailed(m))
        case Success(bytes) => Success(Listing(dest, bytes))
  }

  /** The names of some entries, in order. */
  function EntryNames(files: seq<Entry>): (names: seq<string>)
    ensures |names| == |files|
    ensures forall i :: 0 <= i < |files| ==> names[i] == files[i].name
  {
    seq(|files|, i requires 0 <= i < |files| => files[i].name)
  }

  /** Each name followed by the separator, concatenated. */
  function Join(names: seq<string>, sep: string): string {
    if |names| == 0 then "" else names[0] + sep + Join(names[1..], sep)
  }

  function IsFile(): string -> bool {
    n => !IsDirectoryName(n)
  }

  /** The entries the listing shows: all of them, or the non-directories. */
  function Kept(files: seq<Entry>, includeDirectoryNames: bool): seq<Entry> {
    if includeDirectoryNames then files else Matching(files, IsFile())
  }

  lemma {:induction false} JoinAppend(a: seq<string>, b: seq<string>, sep: string)
    ensures Join(a + b, sep) == Join(a, sep) + Join(b, sep)
    decreases |a|
  {
    if |a| > 0 {
      assert (a + b)[1..] == a[1..] + b;
      JoinAppend(a[1..], b, sep);
    } else {
      assert a + b == b;
    }
  }

  /** The text of a listing: each listed name followed by the separator. */
  function ListText(files: seq<Entry>, includeDirectoryNames: bool, sep: string): string {
    if |files| == 0 then ""
    else (if Listed(files[0], includeDirectoryNames) then files[0].name + sep else "") + ListText(files[1..], includeDirectoryNames, sep)
  }

  /** The listing loop writes exactly the bytes of the listing text. */
  lemma {:induction false} WriteNamesText(files: seq<Entry>, includeDirectoryNames: bool, sep: string)
    ensures WriteNames(files, includeDirectoryNames, Bytes(sep)) == Success(Bytes(ListText(files, includeDirectoryNames, sep)))
    decreases |files|
  {
    if |files| > 0 {
      var f := files[0];
      var tail := ListText(files[1..], includeDirectoryNames, sep);
      WriteNamesText(files[1..], includeDirectoryNames, sep);
      if Listed(f, includeDirectoryNames) {
        CopyOfText(Bytes(f.name), Bytes(sep));
        BytesAppend(f.name, sep);
        BytesAppend(f.name + sep, tail);
      } else {
        assert "" + tail == tail;
      }
    }
  }

  /** The listing text lists the kept entries' names, in archive order. */
  lemma {:induction false} ListTextJoin(files: seq<Entry>, includeDirectoryNames: bool, sep: string)
    ensures ListText(files, includeDirectoryNames, sep) == Join(EntryNames(Kept(files, includeDirectoryNames)), sep)
    decreases |files|
  {
    if |files| > 0 {
      ListTextJoin(files[1..], includeDirectoryNames, sep);
      KeptCons(files, includeDirectoryNames);
      JoinKeptCons(files[0], Listed(files[0], includeDirectoryNames), Kept(files[1..], includeDirectoryNames), sep);
    }
  }

  /** The first entry is kept exactly when it is listed. */
  lemma KeptCons(files: seq<Entry>, includeDirectoryNames: bool)
    requires |files| > 0
    ensures Kept(files, includeDirectoryNames) ==
      (if Listed(files[0], includeDirectoryNames) then [files[0]] else []) + Kept(files[1..], includeDirectoryNames)
  {
    assert files == [files[0]] + files[1..];
    if !includeDirectoryNames {
      MatchingCons(files[0], files[1..], IsFile());
    }
  }

  /** Joining the names of an optional first entry and the rest. */
  lemma JoinKeptCons(f: Entry, listed: bool, kept: seq<Entry>, sep: string)
    ensures Join(EntryNames((if listed then [f] else []) + kept), sep) ==
      (if listed then f.name + sep else "") + Join(EntryNames(kept), sep)
  {
    var head := if listed then [f] else [];
    assert EntryNames(head + kept) == EntryNames(head) + EntryNames(kept);
    JoinAppend(EntryNames(head), EntryNames(kept), sep);
    if listed {
      assert Join(EntryNames(head), sep) == f.name + sep + Join([], sep);
    } else {
      assert EntryNames(head) == [];
    }
  }

  /** End to end: once the client is created and the output opened, the
      listing is the kept names, each followed by the separator; directory
      names appear only with `--include-directory-names`. */
  lemma ListingOutput(flags: ListFlags, c: Client, outputOpens: string -> bool)
    requires flags.out == "" || outputOpens(flags.out)
    ensures var r := RunList(flags, Success(c), outputOpens);
      var sep := BuildSeparator(flags.separator, flags.noNewlines);
      && r.Success?
      && r.value.bytes == Bytes(Join(EntryNames(Kept(c.files, flags.includeDirectoryNames)), sep))
  {
    var sep := BuildSeparator(flags.separator, flags.noNewlines);
    WriteNamesText(c.files, flags.includeDirectoryNames, sep);
    ListTextJoin(c.files, flags.includeDirectoryNames, sep);
  }

  /** With `--include-directory-names` every entry is listed; without it,
      exactly the entries whose names do not end in `/`, in archive order. */
  lemma KeptEntries(files: seq<Entry>, includeDirectoryNames: bool)
    ensures includeDirectoryNames ==> Kept(files, includeDirectoryNames) == files
    ensures !includeDirectoryNames ==>
      var r, idx := Kept(files, false), MatchIndices(files, IsFile());
      && |r| == |idx|
      && (forall k :: 0 <= k < |idx| ==> idx[k] < |files| && r[k] == files[idx[k]])
      && (forall k, l :: 0 <= k < l < |idx| ==> idx[k] < idx[l])
      && (forall i :: 0 <= i < |files| ==> (!IsDirectoryName(files[i].name) <==> i in idx))
  {
    MatchingIsSubsequence(files, IsFile());
  }
}

=== FILE: provider.dfy ===
/** The provider registry (pkg/provider/provider.go): named providers, each
    owning a location protocol and a factory that builds a reader for the
    rest of the location. The registry's lock is left out: every operation
    is atomic. `R` is the reader type the factories build. */
module Provider {
  import opened Wrappers

  datatype Provider<R> = Provider(protocol: string, createPlugin: string -> Result<R, string>)

  datatype Registry<R> = Registry(providers: map<string, Provider<R>>)

  datatype RegistryError =
    | NameTaken(name: string)
    | ProtocolTaken(protocol: string)
    | UnsupportedLocation(location: string)
    | PluginFailed(message: string)

  /** The registry after a call, and the error the call returned. On an
      error the Go registry is left as it was. */
  datatype Registered<R> = Registered(registry: Registry<R>, err: Option<RegistryError>)

  /** `WithProvider(name, protocol, createPlugin)`. */
  datatype RegistryOption<R> = WithProvider(name: string, protocol: string, createPlugin: string -> Result<R, string>)

  function Protocols<R>(reg: Registry<R>): set<string> {
    set n | n in reg.providers :: reg.providers[n].protocol
  }

  /** Registry invariant: no two providers share a protocol (names are
      unique because they are map keys). */
  ghost predicate Valid<R>(reg: Registry<R>) {
    forall a, b :: a in reg.providers && b in reg.providers && a != b ==>
      reg.providers[a].protocol != reg.providers[b].protocol
  }

  /** `NewRegistry()` before options: no providers. */
  function Empty<R>(): Registry<R> {
    Registry(map[])
  }

  /** `RegisterProvider` (pkg/provider/provider.go:46-62). */
  function RegisterProvider<R>(reg: Registry<R>, name: string, protocol: string, createPlugin: string -> Result<R, string>): (r: Registered<R>)
    ensures name in reg.providers ==> r.err == Some(NameTaken(name))
    ensures name !in reg.providers && protocol in Protocols(reg) ==> r.err == Some(ProtocolTaken(protocol))
    ensures r.err.None? <==> name !in reg.providers && protocol !in Protocols(reg)
    ensures r.err.Some? ==> r.registry == reg
    ensures r.err.None? ==> r.registry.providers.Keys == reg.providers.Keys + {name}
    ensures r.err.None? ==> r.registry.providers[name] == Provider(protocol, createPlugin)
    ensures r.err.None? ==> forall n :: n in reg.providers ==> r.registry.providers[n] == reg.providers[n]
    ensures Valid(reg) ==> Valid(r.registry)
  {
    if name in reg.providers then Registered(reg, Some(NameTaken(name)))
    else if exists n :: n in reg.providers && reg.providers[n].protocol == protocol then
      Registered(reg, Some(ProtocolTaken(protocol)))
    else Registered(Registry(reg.providers[name := Provider(protocol, createPlugin)]), None)
  }

  /** `MustRegisterProvider` (pkg/provider/provider.go:65-69): a failed
      registration panics, modelled as a `Failure` carrying the error. */
  function MustRegisterProvider<R>(reg: Registry<R>, name: string, protocol: string, createPlugin: string -> Result<R, string>): (r: Result<Registry<R>, RegistryError>)
    ensures r.Success? <==> name !in reg.providers && protocol !in Protocols(reg)
    ensures r.Success? ==> r.value.providers == reg.providers[name := Provider(protocol, createPlugin)]
    ensures r.Failure? ==> r.error == if name in reg.providers then NameTaken(name) else ProtocolTaken(protocol)
  {
    var registered := RegisterProvider(reg, name, protocol, createPlugin);
    match registered.err
    case Some(e) => Failure(e)
    case None => Success(registered.registry)
  }

  /** Applying `WithProvider` options in order; the first conflict aborts. */
  function ApplyOptions<R>(reg: Registry<R>, opts: seq<RegistryOption<R>>): (r: Result<Registry<R>, RegistryError>)
    ensures r.Failure? ==> r.error.NameTaken? || r.error.ProtocolTaken?
    ensures r.Success? ==> r.value.providers.Keys == reg.providers.Keys + Names(opts)
    ensures r.Success? && Valid(reg) ==> Valid(r.value)
    decreases |opts|
  {
    if |opts| == 0 then Success(reg)
    else
      match MustRegisterProvider(reg, opts[0].name, opts[0].protocol, opts[0].createPlugin)
      case Failure(e) => Failure(e)
      case Success(next) => ApplyOptions(next, opts[1..])
  }

  /** `NewRegistry(opts...)` (pkg/provider/provider.go:28-36). */
  function NewRegistry<R>(opts: seq<RegistryOption<R>>): (r: Result<Registry<R>, RegistryError>)
    ensures r.Failure? ==> r.error.NameTaken? || r.error.ProtocolTaken?
    ensures r.Success? ==> Valid(r.value) && r.value.providers.Keys == Names(opts)
  {
    ApplyOptions(Empty(), opts)
  }

  /** The options name pairwise distinct providers with pairwise distinct protocols. */
  predicate DistinctOptions<R>(opts: seq<RegistryOption<R>>) {
    forall i, j :: 0 <= i < j < |opts| ==> opts[i].name != opts[j].name && opts[i].protocol != opts[j].protocol
  }

  /** Options that can all be added to `reg`, one after the other. */
  predicate Compatible<R>(reg: Registry<R>, opts: seq<RegistryOption<R>>) {
    && DistinctOptions(opts)
    && forall i :: 0 <= i < |opts| ==> opts[i].name !in reg.providers && opts[i].protocol !in Protocols(reg)
  }

  /** The names the options register. */
  function Names<R>(opts: seq<RegistryOption<R>>): (names: set<string>)
    ensures forall i :: 0 <= i < |opts| ==> opts[i].name in names
  {
    if |opts| == 0 then {} else {opts[0].name} + Names(opts[1..])
  }

  /** Compatibility of a non-empty option list, one option at a time. */
  lemma CompatibleStep<R>(reg: Registry<R>, opts: seq<RegistryOption<R>>)
    requires |opts| > 0
    requires opts[0].name !in reg.providers && opts[0].protocol !in Protocols(reg)
    ensures var next := RegisterProvider(reg, opts[0].name, opts[0].protocol, opts[0].createPlugin).registry;
      Compatible(reg, opts) <==> Compatible(next, opts[1..])
  {
  }

  /** Applying options to a valid registry succeeds exactly when they are
      compatible with it. */
  lemma {:induction false} ApplyOptionsSucceeds<R>(reg: Registry<R>, opts: seq<RegistryOption<R>>)
    requires Valid(reg)
    ensures ApplyOptions(reg, opts).Success? <==> Compatible(reg, opts)
    decreases |opts|
  {
    if |opts| > 0 {
      var o := opts[0];
      var step := RegisterProvider(reg, o.name, o.protocol, o.createPlugin);
      if step.err.None? {
        CompatibleStep(reg, opts);
        ApplyOptionsSucceeds(step.registry, opts[1..]);
      }
    }
  }

  /** A successful application keeps the registry valid, keeps every earlier
      provider, and adds exactly one provider per option. */
  lemma {:induction false} ApplyOptionsAdds<R>(reg: Registry<R>, opts: seq<RegistryOption<R>>)
    requires Valid(reg) && ApplyOptions(reg, opts).Success?
    ensures var r := ApplyOptions(reg, opts).value;
      && Valid(r)
      && r.providers.Keys == reg.providers.Keys + Names(opts)
      && (forall n :: n in reg.providers ==> r.providers[n] == reg.providers[n])
      && (forall i :: 0 <= i < |opts| ==> r.providers[opts[i].name] == Provider(opts[i].protocol, opts[i].createPlugin))
    decreases |opts|
  {
    if |opts| > 0 {
      var o := opts[0];
      var rest := opts[1..];
      var next := RegisterProvider(reg, o.name, o.protocol, o.createPlugin).registry;
      ApplyOptionsAdds(next, rest);
      var r := ApplyOptions(reg, opts).value;
      assert r == ApplyOptions(next, rest).value;
      forall i | 0 <= i < |opts|
        ensures r.providers[opts[i].name] == Provider(opts[i].protocol, opts[i].createPlugin)
      {
        if i > 0 {
          assert opts[i] == rest[i - 1];
        }
      }
    }
  }

  /** Option `k` is the one that panics: the options before it were all
      registered, and registering it on the result fails with `e`. */
  predicate ConflictAt<R>(reg: Registry<R>, opts: seq<RegistryOption<R>>, k: nat, e: RegistryError) {
    && k < |opts|
    && ApplyOptions(reg, opts[..k]).Success?
    && MustRegisterProvider(ApplyOptions(reg, opts[..k]).value, opts[k].name, opts[k].protocol, opts[k].createPlugin) == Failure(e)
  }

  /** Options are applied in order, and a failed application carries the
      error of the first option that cannot be registered. */
  lemma {:induction false} ApplyOptionsFirstConflict<R>(reg: Registry<R>, opts: seq<RegistryOption<R>>)
    ensures ApplyOptions(reg, opts).Failure? ==> exists k: nat :: ConflictAt(reg, opts, k, ApplyOptions(reg, opts).error)
    decreases |opts|
  {
    if |opts| > 0 && ApplyOptions(reg, opts).Failure? {
      var o := opts[0];
      var e := ApplyOptions(reg, opts).error;
      assert opts[..0] == [];
      match MustRegisterProvider(reg, o.name, o.protocol, o.createPlugin)
      case Failure(_) =>
        assert ConflictAt(reg, opts, 0, e);
      case Success(next) =>
        ApplyOptionsFirstConflict(next, opts[1..]);
        var k: nat :| ConflictAt(next, opts[1..], k, e);
        assert opts[..k + 1][0] == o && opts[..k + 1][1..] == opts[1..][..k];
        assert ApplyOptions(reg, opts[..k + 1]) == ApplyOptions(next, opts[1..][..k]);
        assert ConflictAt(reg, opts, k + 1, e);
    }
  }

  /** `NewRegistry` panics with the error of the first option that cannot be
      added to the providers registered before it. */
  lemma NewRegistryFirstConflict<R>(opts: seq<RegistryOption<R>>)
    ensures NewRegistry(opts).Failure? ==> exists k: nat :: ConflictAt(Empty(), opts, k, NewRegistry(opts).error)
  {
    ApplyOptionsFirstConflict(Empty<R>(), opts);
  }

  /** `NewRegistry` succeeds exactly when the options name distinct providers
      with distinct protocols: a conflicting option aborts instead of being
      dropped. */
  lemma NewRegistrySucceeds<R>(opts: seq<RegistryOption<R>>)
    ensures NewRegistry(opts).Success? <==> DistinctOptions(opts)
  {
    ApplyOptionsSucceeds(Empty<R>(), opts);
  }

  /** A registry built from options is valid and holds exactly one provider
      per option. */
  lemma NewRegistryHolds<R>(opts: seq<RegistryOption<R>>)
    requires NewRegistry(opts).Success?
    ensures Valid(NewRegistry(opts).value)
    ensures NewRegistry(opts).value.providers.Keys == Names(opts)
    ensures forall i :: 0 <= i < |opts| ==>
      NewRegistry(opts).value.providers[opts[i].name] == Provider(opts[i].protocol, opts[i].createPlugin)
  {
    ApplyOptionsAdds(Empty<R>(), opts);
  }

  /** `strings.HasPrefix(location, protocol)`. */
  predicate HasPrefix(location: string, protocol: string) {
    protocol <= location
  }

  /** `order` lists every registered name exactly once: one possible Go map
      iteration order. */
  predicate IsOrder<R>(reg: Registry<R>, order: seq<string>) {
    && (forall i, j :: 0 <= i < j < |order| ==> order[i] != order[j])
    && (forall n :: n in order ==> n in reg.providers)
    && (forall n :: n in reg.providers ==> n in order)
  }

  /** The first provider, in iteration order, whose protocol prefixes `location`. */
  function Choose<R>(reg: Registry<R>, location: string, order: seq<string>): (c: Option<string>)
    requires forall n :: n in order ==> n in reg.providers
    ensures c.Some? ==> c.value in order && HasPrefix(location, reg.providers[c.value].protocol)
    ensures c.None? <==> forall n :: n in order ==> !HasPrefix(location, reg.providers[n].protocol)
    ensures c.Some? ==>
      exists i :: && 0 <= i < |order|
                  && order[i] == c.value
                  && forall j :: 0 <= j < i ==> !HasPrefix(location, reg.providers[order[j]].protocol)
  {
    if |order| == 0 then None
    else if HasPrefix(location, reg.providers[order[0]].protocol) then Some(order[0])
    else
      var c := Choose(reg, location, order[1..]);
      // A match at position i of the tail is a match at position i + 1 here.
      assert c.Some? ==> exists i :: && 0 <= i < |order|
                                     && order[i] == c.value
                                     && forall j :: 0 <= j < i ==> !HasPrefix(location, reg.providers[order[j]].protocol)
      by {
        if c.Some? {
          var i :| && 0 <= i < |order[1..]|
                   && order[1..][i] == c.value
                   && forall j :: 0 <= j < i ==> !HasPrefix(location, reg.providers[order[1..][j]].protocol);
          assert order[i + 1] == c.value;
        }
      }
      c
  }

  /** `GetPlugin` (pkg/provider/provider.go:72-81). Go's map iteration order
      is unspecified; `order` is the one this call happens to use. */
  function GetPlugin<R>(reg: Registry<R>, location: string, order: seq<string>): (r: Result<R, RegistryError>)
    requires IsOrder(reg, order)
    ensures r == Failure(UnsupportedLocation(location)) <==> !Serves(reg, location)
    ensures Serves(reg, location) ==>
      exists n :: && n in reg.providers
                  && HasPrefix(location, reg.providers[n].protocol)
                  && r == Plugin(reg.providers[n].createPlugin(location[|reg.providers[n].protocol|..]))
  {
    match Choose(reg, location, order)
    case None => Failure(UnsupportedLocation(location))
    case Some(n) =>
      var p := reg.providers[n];
      Plugin(p.createPlugin(location[|p.protocol|..]))
  }

  /** The factory's result as `GetPlugin` returns it. */
  function Plugin<R>(made: Result<R, string>): Result<R, RegistryError> {
    match made
    case Success(reader) => Success(reader)
    case Failure(e) => Failure(PluginFailed(e))
  }

  /** Some registered protocol is a prefix of `location`. */
  predicate Serves<R>(reg: Registry<R>, location: string) {
    exists n :: n in reg.providers && HasPrefix(location, reg.providers[n].protocol)
  }

  /** When at most one registered protocol prefixes the location, the map
      iteration order does not matter. */
  lemma GetPluginDeterministic<R>(reg: Registry<R>, location: string, o1: seq<string>, o2: seq<string>)
    requires IsOrder(reg, o1) && IsOrder(reg, o2)
    requires forall a, b ::
      (&& a in reg.providers && b in reg.providers
       && HasPrefix(location, reg.providers[a].protocol)
       && HasPrefix(location, reg.providers[b].protocol)) ==> a == b
    ensures GetPlugin(reg, location, o1) == GetPlugin(reg, location, o2)
  {
  }
}

=== FILE: root.dfy ===
/** The root command's pre-run (cmd/root.go): choosing a storage backend
    from the `--location` flag, then setting the log level. */
module Root {
  import opened Wrappers

  const S3Scheme: string := "s3://"
  const FileScheme: string := "file://"

  /** The storage backends `initProvider` can construct. */
  datatype Backend = S3(host: string, path: string) | Local(path: string)

  /** The URI parts `url.Parse` yields for an `s3://` location. */
  datatype Endpoint = Endpoint(host: string, path: string)

  datatype RootError =
    | EmptyLocation
    | BadS3Uri(message: string)
    | UnsupportedLocation(location: string)
    | BadVerbosity(verbosity: string)

  /** `initProvider` (cmd/root.go:61-79). `parseUri` stands for `url.Parse`. */
  function InitProvider(location: string, parseUri: string -> Result<Endpoint, string>): (r: Result<Backend, RootError>)
    ensures location == "" <==> r == Failure(EmptyLocation)
    ensures r.Success? && r.value.S3? ==> S3Scheme <= location && parseUri(location) == Success(Endpoint(r.value.host, r.value.path))
    ensures r.Success? && r.value.Local? ==> !(S3Scheme <= location) && location == FileScheme + r.value.path
    ensures r == Failure(UnsupportedLocation(location)) <==> location != "" && !(S3Scheme <= location) && !(FileScheme <= location)
    ensures r.Failure? && r.error.BadS3Uri? ==> S3Scheme <= location && parseUri(location).Failure?
  {
    if location == "" then Failure(EmptyLocation)
    else if S3Scheme <= location then
      match parseUri(location)
      case Failure(e) => Failure(BadS3Uri(e))
      case Success(endpoint) => Success(S3(endpoint.host, endpoint.path))
    else if FileScheme <= location then Success(Local(location[|FileScheme|..]))
    else Failure(UnsupportedLocation(location))
  }

  /** Every `file://` location reaches the local backend with its path intact. */
  lemma LocalRoundTrip(path: string, parseUri: string -> Result<Endpoint, string>)
    ensures InitProvider(FileScheme + path, parseUri) == Success(Local(path))
  {
    var location := FileScheme + path;
    assert location[0] == 'f';
    assert !(S3Scheme <= location);
    assert location[|FileScheme|..] == path;
  }

  /** A location with the `s3://` prefix never reaches the local backend,
      whatever follows the prefix. */
  lemma S3TakesPrecedence(location: string, parseUri: string -> Result<Endpoint, string>)
    requires S3Scheme <= location
    ensures InitProvider(location, parseUri).Success? <==> parseUri(location).Success?
    ensures InitProvider(location, parseUri).Success? ==> InitProvider(location, parseUri).value.S3?
  {
  }

  /** logrus levels, from least to most verbose. */
  datatype Level = PanicLevel | FatalLevel | ErrorLevel | WarnLevel | InfoLevel | DebugLevel | TraceLevel

  /** The numeric value of a logrus level; larger is more verbose. */
  function Rank(l: Level): nat {
    match l
    case PanicLevel => 0
    case FatalLevel => 1
    case ErrorLevel => 2
    case WarnLevel => 3
    case InfoLevel => 4
    case DebugLevel => 5
    case TraceLevel => 6
  }

  /** `Level.String()`. */
  function LevelName(l: Level): string {
    match l
    case PanicLevel => "panic"
    case FatalLevel => "fatal"
    case ErrorLevel => "error"
    case WarnLevel => "warning"
    case InfoLevel => "info"
    case DebugLevel => "debug"
    case TraceLevel => "trace"
  }

  /** The `--verbosity` default: `logrus.WarnLevel.String()`. */
  const DefaultVerbosity: string := LevelName(WarnLevel)

  function LowerChar(c: char): char {
    if 'A' <= c <= 'Z' then (c as int + 32) as char else c
  }

  function Lower(s: string): (r: string)
    ensures |r| == |s|
  {
    seq(|s|, i requires 0 <= i < |s| => LowerChar(s[i]))
  }

  /** `logrus.ParseLevel`: a level name, ignoring the case of ASCII letters. */
  function ParseLevel(s: string): (r: Option<Level>)
    ensures r.Some? ==> Lower(s) == LevelName(r.value) || (r.value == WarnLevel && Lower(s) == "warn")
    ensures r.None? <==> Lower(s) != "warn" && forall l: Level :: Lower(s) != LevelName(l)
  {
    var l := Lower(s);
    if l == "panic" then Some(PanicLevel)
    else if l == "fatal" then Some(FatalLevel)
    else if l == "error" then Some(ErrorLevel)
    else if l == "warn" || l == "warning" then Some(WarnLevel)
    else if l == "info" then Some(InfoLevel)
    else if l == "debug" then Some(DebugLevel)
    else if l == "trace" then Some(TraceLevel)
    else None
  }

  /** Level names parse back to their level. */
  lemma ParseLevelName(l: Level)
    ensures ParseLevel(LevelName(l)) == Some(l)
  {
    var s := LevelName(l);
    assert Lower(s) == s;
  }

  /** `setupLogger` (cmd/root.go:81-92): the parsed level, raised to Debug in
      development mode when it is less verbose than Debug. */
  function SetupLogger(development: bool, verbosity: string): (r: Result<Level, RootError>)
    ensures r.Failure? <==> ParseLevel(verbosity).None?
    ensures r.Failure? ==> r.error == BadVerbosity(verbosity)
    ensures r.Success? && !development ==> Some(r.value) == ParseLevel(verbosity)
    ensures r.Success? && development ==>
      Rank(r.value) == if Rank(ParseLevel(verbosity).value) < Rank(DebugLevel) then Rank(DebugLevel) else Rank(ParseLevel(verbosity).value)
  {
    match ParseLevel(verbosity)
    case None => Failure(BadVerbosity(verbosity))
    case Some(level) =>
      if development && Rank(level) < Rank(DebugLevel) then Success(DebugLevel) else Success(level)
  }

  /** Development mode never makes logging quieter, and always logs at least
      Debug messages. */
  lemma DevelopmentIsVerbose(verbosity: string)
    requires ParseLevel(verbosity).Some?
    ensures Rank(SetupLogger(true, verbosity).value) >= Rank(ParseLevel(verbosity).value)
    ensures Rank(SetupLogger(true, verbosity).value) >= Rank(DebugLevel)
    ensures SetupLogger(true, verbosity).value == SetupLogger(false, verbosity).value <==> Rank(ParseLevel(verbosity).value) >= Rank(DebugLevel)
  {
  }

  /** The root `PersistentPreRunE` (cmd/root.go:42-50): the backend first,
      then the logger. */
  function PreRun(location: string, development: bool, verbosity: string, parseUri: string -> Result<Endpoint, string>): (r: Result<(Backend, Level), RootError>)
    ensures r.Success? <==> InitProvider(location, parseUri).Success? && SetupLogger(development, verbosity).Success?
    ensures InitProvider(location, parseUri).Failure? ==> r == Failure(InitProvider(location, parseUri).error)
    ensures InitProvider(location, parseUri).Success? && SetupLogger(development, verbosity).Failure? ==>
      r == Failure(SetupLogger(development, verbosity).error)
    ensures r.Success? ==> r.value == (InitProvider(location, parseUri).value, SetupLogger(development, verbosity).value)
  {
    var backend :- InitProvider(location, parseUri);
    var level :- SetupLogger(development, verbosity);
    Success((backend, level))
  }
}

=== FILE: streams.dfy ===
/** Go's `io.Reader` as seen by a copy loop, and Go's string-to-bytes view.

    A reader is modelled by its SCRIPT: the results that its successive
    `Read` calls return. Once the script is exhausted every further `Read`
    returns zero bytes and `io.EOF`. */
module Streams {
  import opened Wrappers

  type byte = b: int | 0 <= b < 256

  /** Length of the buffer that `writeToFile` reads into (cmd/util.go:23). */
  const BufferSize: nat := 128

  datatype ReadError = NoError | EOF | Failed(message: string)

  /** What one `Read(buf)` call returns: the `n` bytes it filled and its error. */
  datatype ReadResult<T> = ReadResult(data: seq<T>, err: ReadError)

  type Script<T> = seq<ReadResult<T>>

  /** The `io.Reader` contract for a `BufferSize` buffer: `0 <= n <= len(buf)`. */
  predicate FitsBuffer<T>(s: Script<T>) {
    forall i :: 0 <= i < |s| ==> |s[i].data| <= BufferSize
  }

  /** Concatenation of a sequence of chunks, in order. */
  function Flatten<T>(chunks: seq<seq<T>>): seq<T> {
    if |chunks| == 0 then [] else Flatten(chunks[..|chunks| - 1]) + chunks[|chunks| - 1]
  }

  lemma {:induction false} FlattenAppend<T>(a: seq<seq<T>>, b: seq<seq<T>>)
    ensures Flatten(a + b) == Flatten(a) + Flatten(b)
    decreases |b|
  {
    if |b| == 0 {
      assert a + b == a;
    } else {
      var last := b[|b| - 1];
      assert (a + b)[..|a + b| - 1] == a + b[..|b| - 1];
      FlattenAppend(a, b[..|b| - 1]);
    }
  }

  /** The script of a `strings.Reader` (behind a `bufio.Reader`) over `x`:
      full buffers first, then the remainder; the end of the script is EOF. */
  function ChunksOf<T>(x: seq<T>): (s: Script<T>)
    ensures FitsBuffer(s)
    ensures forall i :: 0 <= i < |s| ==> s[i].err == NoError && |s[i].data| > 0
    decreases |x|
  {
    if |x| == 0 then []
    else if |x| <= BufferSize then [ReadResult(x, NoError)]
    else [ReadResult(x[..BufferSize], NoError)] + ChunksOf(x[BufferSize..])
  }

  /** The data of each read of a script, in order. */
  function Reads<T>(s: Script<T>): (d: seq<seq<T>>)
    ensures |d| == |s|
    ensures forall i :: 0 <= i < |s| ==> d[i] == s[i].data
  {
    seq(|s|, i requires 0 <= i < |s| => s[i].data)
  }

  /** The data of a script's reads, concatenated. */
  function Delivered<T>(s: Script<T>): seq<T> {
    Flatten(Reads(s))
  }

  lemma DeliveredCons<T>(r: ReadResult<T>, s: Script<T>)
    ensures Delivered([r] + s) == r.data + Delivered(s)
  {
    assert Reads([r] + s) == [r.data] + Reads(s);
    FlattenAppend([r.data], Reads(s));
    assert Flatten([r.data]) == Flatten([r.data][..0]) + r.data;
  }

  lemma {:induction false} ChunksOfDelivers<T>(x: seq<T>)
    ensures Delivered(ChunksOf(x)) == x
    decreases |x|
  {
    if |x| == 0 {
    } else if |x| <= BufferSize {
      DeliveredCons(ReadResult(x, NoError), []);
      assert [ReadResult(x, NoError)] + [] == ChunksOf(x);
    } else {
      ChunksOfDelivers(x[BufferSize..]);
      DeliveredCons(ReadResult(x[..BufferSize], NoError), ChunksOf(x[BufferSize..]));
      assert x == x[..BufferSize] + x[BufferSize..];
    }
  }

  /** UTF-8 encoding of one Unicode scalar value: the bytes Go stores for it. */
  function EncodeChar(c: char): (r: seq<byte>)
    ensures 1 <= |r| <= 4
    ensures (c as int) < 0x80 <==> |r| == 1
    ensures (c as int) < 0x80 ==> r[0] == c as int
  {
    var n := c as int;
    if n < 0x80 then [n]
    else if n < 0x800 then [0xC0 + n / 0x40, 0x80 + n % 0x40]
    else if n < 0x1_0000 then [0xE0 + n / 0x1000, 0x80 + (n / 0x40) % 0x40, 0x80 + n % 0x40]
    else [0xF0 + n / 0x4_0000, 0x80 + (n / 0x1000) % 0x40, 0x80 + (n / 0x40) % 0x40, 0x80 + n % 0x40]
  }

  /** The bytes of a Go string holding the text `s` (UTF-8). */
  function Bytes(s: string): seq<byte> {
    if |s| == 0 then [] else Bytes(s[..|s| - 1]) + EncodeChar(s[|s| - 1])
  }

  lemma {:induction false} BytesAppend(a: string, b: string)
    ensures Bytes(a + b) == Bytes(a) + Bytes(b)
    decreases |b|
  {
    if |b| == 0 {
      assert a + b == a;
    } else {
      assert (a + b)[..|a + b| - 1] == a + b[..|b| - 1];
      BytesAppend(a, b[..|b| - 1]);
    }
  }
}

=== FILE: wrappers.dfy ===
/** Failure-carrying values used throughout the model in place of Go's
    `(value, error)` pairs and `nil` results. */
module Wrappers {

  datatype Option<+T> = None | Some(value: T)

  datatype Result<+R, +E> = Success(value: R) | Failure(error: E) {

    predicate IsFailure() {
      Failure?
    }

    function PropagateFailure<U>(): Result<U, E>
      requires Failure?
    {
      Failure(error)
    }

    function Extract(): R
      requires Success?
    {
      value
    }
  }
}

=== FILE: zipspy.dfy ===
/** The zipspy client (pkg/zipspy/client.go): a thin locator over the entry
    list that the ZIP reader produces. The ZIP reader itself is not part of
    this model: an archive is the sequence of its entries in central
    directory order. */
module Zipspy {
  import opened Wrappers
  import opened Streams

  /** One archive member: its name and what opening it yields, either the
      script of its decompressed content or the open error. */
  datatype Entry = Entry(name: string, open: Result<Script<byte>, string>)

  /** `strings.HasSuffix(name, "/")`: the entry is a directory. */
  predicate IsDirectoryName(name: string) {
    |name| > 0 && name[|name| - 1] == '/'
  }

  datatype Client = Client(files: seq<Entry>)

  datatype ClientError = SizeFailed(message: string) | ReaderFailed(message: string)

  /** `NewClient`: the source's size first, then the ZIP reader built from
      that size. `newReader` stands for `reader.NewReader` over the source. */
  function NewClient(size: Result<int, string>, newReader: int -> Result<seq<Entry>, string>): (r: Result<Client, ClientError>)
    ensures size.Failure? ==> r == Failure(SizeFailed(size.error))
    ensures size.Success? && newReader(size.value).Failure? ==> r == Failure(ReaderFailed(newReader(size.value).error))
    ensures r.Success? <==> size.Success? && newReader(size.value).Success?
    ensures r.Success? ==> r.value.files == newReader(size.value).value
  {
    match size
    case Failure(e) => Failure(SizeFailed(e))
    case Success(n) =>
      match newReader(n)
      case Failure(e) => Failure(ReaderFailed(e))
      case Success(files) => Success(Client(files))
  }

  /** `AllFiles`: the entries in archive order, directories included. */
  function AllFiles(c: Client): (r: seq<Entry>)
    ensures r == Matching(c.files, (name: string) => true)
  {
    MatchingEvery(c.files, (name: string) => true);
    c.files
  }

  /** The entries, in archive order, whose name satisfies `p`. */
  function Matching(files: seq<Entry>, p: string -> bool): seq<Entry> {
    if |files| == 0 then []
    else Matching(files[..|files| - 1], p) + (if p(files[|files| - 1].name) then [files[|files| - 1]] else [])
  }

  /** The positions, in increasing order, of the entries whose name satisfies `p`. */
  function MatchIndices(files: seq<Entry>, p: string -> bool): seq<nat> {
    if |files| == 0 then []
    else MatchIndices(files[..|files| - 1], p) + (if p(files[|files| - 1].name) then [|files| - 1] else [])
  }

  /** Name equality as a predicate. */
  function NameIs(s: string): string -> bool {
    n => n == s
  }

  /** For each query in turn, the entries carrying exactly that name. */
  function FilesNamed(files: seq<Entry>, queries: seq<string>): seq<Entry> {
    if |queries| == 0 then []
    else FilesNamed(files, queries[..|queries| - 1]) + Matching(files, NameIs(queries[|queries| - 1]))
  }

  /** `GetFiles` (pkg/zipspy/client.go:41-51): for each search string, every
      entry of that name in archive order. */
  method GetFiles(c: Client, queries: seq<string>) returns (matches: seq<Entry>)
    ensures matches == FilesNamed(c.files, queries)
  {
    matches := [];
    for i := 0 to |queries|
      invariant matches == FilesNamed(c.files, queries[..i])
    {
      for j := 0 to |c.files|
        invariant matches == FilesNamed(c.files, queries[..i]) + Matching(c.files[..j], NameIs(queries[i]))
      {
        assert c.files[..j + 1][..j] == c.files[..j];
        if c.files[j].name == queries[i] {
          matches := matches + [c.files[j]];
        }
      }
      assert c.files[..|c.files|] == c.files;
      assert queries[..i + 1][..i] == queries[..i];
    }
    assert queries[..|queries|] == queries;
  }

  /** `SearchFiles` (pkg/zipspy/client.go:54-62) with the regular expression
      abstracted as the name predicate `p` ("has a submatch"). */
  method SearchFiles(c: Client, p: string -> bool) returns (matches: seq<Entry>)
    ensures matches == Matching(c.files, p)
  {
    matches := [];
    for j := 0 to |c.files|
      invariant matches == Matching(c.files[..j], p)
    {
      assert c.files[..j + 1][..j] == c.files[..j];
      if p(c.files[j].name) {
        matches := matches + [c.files[j]];
      }
    }
    assert c.files[..|c.files|] == c.files;
  }

  /** `Matching` is exactly the subsequence of `files` at the increasing
      positions whose names satisfy `p`: archive order, each entry once. */
  lemma {:induction false} MatchingIsSubsequence(files: seq<Entry>, p: string -> bool)
    ensures var r, idx := Matching(files, p), MatchIndices(files, p);
      && |r| == |idx|
      && (forall k :: 0 <= k < |idx| ==> idx[k] < |files| && r[k] == files[idx[k]])
      && (forall k, l :: 0 <= k < l < |idx| ==> idx[k] < idx[l])
      && (forall i :: 0 <= i < |files| ==> (p(files[i].name) <==> i in idx))
    decreases |files|
  {
    if |files| > 0 {
      var n := |files| - 1;
      var pre := files[..n];
      var r0, idx0 := Matching(pre, p), MatchIndices(pre, p);
      MatchingIsSubsequence(pre, p);
      var hit := p(files[n].name);
      var r, idx := Matching(files, p), MatchIndices(files, p);
      assert r == r0 + (if hit then [files[n]] else []);
      assert idx == idx0 + (if hit then [n] else []);
      forall k | 0 <= k < |idx|
        ensures idx[k] < |files| && r[k] == files[idx[k]]
      {
        if k < |idx0| {
          assert idx[k] == idx0[k] && r[k] == r0[k];
          assert pre[idx0[k]] == files[idx0[k]];
        }
      }
      forall k, l | 0 <= k < l < |idx|
        ensures idx[k] < idx[l]
      {
        if l < |idx0| {
          assert idx[k] == idx0[k] && idx[l] == idx0[l];
        } else {
          assert idx[k] == idx0[k] && idx0[k] < n;
        }
      }
      forall i | 0 <= i < |files|
        ensures p(files[i].name) <==> i in idx
      {
        if i < n {
          assert pre[i] == files[i];
          assert i in idx <==> i in idx0;
        } else {
          assert forall k :: 0 <= k < |idx0| ==> idx0[k] < n;
        }
      }
    }
  }

  /** Every entry `Matching` returns is an archive entry satisfying `p`, and it
      occurs as often as in the archive. */
  lemma {:induction false} MatchingCount(files: seq<Entry>, p: string -> bool, e: Entry)
    ensures multiset(Matching(files, p))[e] == if p(e.name) then multiset(files)[e] else 0
    decreases |files|
  {
    if |files| > 0 {
      var n := |files| - 1;
      MatchingCount(files[..n], p, e);
      assert files == files[..n] + [files[n]];
    }
  }

  /** Queries are processed one after the other: the result for `a + b` is
      the result for `a` followed by the result for `b`. */
  lemma {:induction false} FilesNamedAppend(files: seq<Entry>, a: seq<string>, b: seq<string>)
    ensures FilesNamed(files, a + b) == FilesNamed(files, a) + FilesNamed(files, b)
    decreases |b|
  {
    if |b| == 0 {
      assert a + b == a;
    } else {
      var n := |b| - 1;
      var ab := a + b;
      assert ab[..|ab| - 1] == a + b[..n];
      assert ab[|ab| - 1] == b[n];
      var last := Matching(files, NameIs(b[n]));
      assert FilesNamed(files, ab) == FilesNamed(files, a + b[..n]) + last;
      assert FilesNamed(files, b) == FilesNamed(files, b[..n]) + last;
      FilesNamedAppend(files, a, b[..n]);
    }
  }

  /** Each returned entry is an archive entry named by some query; an entry
      comes back once per occurrence in the archive for each time its name is
      queried, so repeated queries duplicate and unknown names add nothing. */
  lemma {:induction false} FilesNamedCount(files: seq<Entry>, queries: seq<string>, e: Entry)
    ensures multiset(FilesNamed(files, queries))[e] == multiset(queries)[e.name] * multiset(files)[e]
    decreases |queries|
  {
    if |queries| > 0 {
      var n := |queries| - 1;
      var q := queries[n];
      FilesNamedCount(files, queries[..n], e);
      MatchingCount(files, NameIs(q), e);
      var c := if q == e.name then 1 else 0;
      LastQueryCount(files, queries, e);
      QueryCount(queries, e.name);
      Distribute(multiset(queries[..n])[e.name], c, multiset(files)[e]);
    }
  }

  lemma LastQueryCount(files: seq<Entry>, queries: seq<string>, e: Entry)
    requires |queries| > 0
    ensures var n := |queries| - 1;
      multiset(FilesNamed(files, queries))[e] ==
        multiset(FilesNamed(files, queries[..n]))[e] + multiset(Matching(files, NameIs(queries[n])))[e]
  {
  }

  lemma QueryCount(queries: seq<string>, name: string)
    requires |queries| > 0
    ensures var n := |queries| - 1;
      multiset(queries)[name] == multiset(queries[..n])[name] + (if queries[n] == name then 1 else 0)
  {
    var n := |queries| - 1;
    assert queries == queries[..n] + [queries[n]];
    assert multiset(queries) == multiset(queries[..n]) + multiset{queries[n]};
  }

  /** Distributivity, kept out of `FilesNamedCount` so that its nonlinear
      step is proved in a small context. */
  lemma Distribute(a: nat, c: nat, m: nat)
    ensures a * m + c * m == (a + c) * m
  {
  }

  /** When every query names exactly one entry, the result holds one entry
      per query, in query order, each carrying its query's name. */
  lemma {:induction false} FilesNamedOnePerQuery(files: seq<Entry>, queries: seq<string>)
    requires forall i :: 0 <= i < |queries| ==> |Matching(files, NameIs(queries[i]))| == 1
    ensures |FilesNamed(files, queries)| == |queries|
    ensures forall i :: 0 <= i < |queries| ==> FilesNamed(files, queries)[i].name == queries[i]
    decreases |queries|
  {
    if |queries| > 0 {
      var n := |queries| - 1;
      var q := queries[n];
      FilesNamedOnePerQuery(files, queries[..n]);
      MatchingIsSubsequence(files, NameIs(q));
      var last := Matching(files, NameIs(q));
      var idx := MatchIndices(files, NameIs(q));
      assert idx[0] in idx;
      assert last[0].name == q;
      assert FilesNamed(files, queries) == FilesNamed(files, queries[..n]) + last;
    }
  }

  /** When every entry's name satisfies `p`, the search returns them all. */
  lemma {:induction false} MatchingEvery(files: seq<Entry>, p: string -> bool)
    requires forall i :: 0 <= i < |files| ==> p(files[i].name)
    ensures Matching(files, p) == files
    decreases |files|
  {
    if |files| > 0 {
      MatchingEvery(files[..|files| - 1], p);
      assert files == files[..|files| - 1] + [files[|files| - 1]];
    }
  }

  /** Filtering a list that starts with `f`: `f` if it matches, then the
      filtered rest. */
  lemma {:induction false} MatchingCons(f: Entry, rest: seq<Entry>, p: string -> bool)
    ensures Matching([f] + rest, p) == (if p(f.name) then [f] else []) + Matching(rest, p)
    decreases |rest|
  {
    if |rest| > 0 {
      var n := |rest| - 1;
      assert ([f] + rest)[..|rest|] == [f] + rest[..n];
      MatchingCons(f, rest[..n], p);
    } else {
      assert [f] + rest == [f];
    }
  }

  /** Every entry the lookup returns is an archive entry named by a query. */
  lemma FilesNamedSound(files: seq<Entry>, queries: seq<string>)
    ensures forall e :: e in FilesNamed(files, queries) ==> e in files && e.name in queries
  {
    forall e | e in FilesNamed(files, queries)
      ensures e in files && e.name in queries
    {
      FilesNamedCount(files, queries, e);
    }
  }

  /** A search string that names no entry contributes nothing. */
  lemma {:induction false} UnknownNameAddsNothing(files: seq<Entry>, queries: seq<string>, s: string)
    requires forall i :: 0 <= i < |files| ==> files[i].name != s
    ensures FilesNamed(files, queries + [s]) == FilesNamed(files, queries)
  {
    MatchingAbsent(files, s);
    assert (queries + [s])[..|queries|] == queries;
  }

  lemma {:induction false} MatchingAbsent(files: seq<Entry>, s: string)
    requires forall i :: 0 <= i < |files| ==> files[i].name != s
    ensures Matching(files, NameIs(s)) == []
    decreases |files|
  {
    if |files| > 0 {
      MatchingAbsent(files[..|files| - 1], s);
    }
  }
}
